=== FILE: README.md ===
# github-agent: a verified model of the event log, the workflow-status reduction, the change analysis and the template choice

github-agent gives an AI agent two kinds of tools (server.py) and runs a
webhook receiver (webhook_server.py). The receiver records GitHub Actions
webhooks in a JSON file, `github_events.json`, and keeps the last 100 of them.
The tools read that file back: `get_recent_actions_events` lists the most
recent events and `get_workflow_status` reports one current status per
workflow. Two more tools work on the local repository. `analyze_file_changes`
runs git and reports the changed files, statistics, commits and an optionally
truncated diff. `suggest_template` picks a pull-request template for a change
type.

This project models those parts in Dafny and proves what they promise:

- `optional.dfy` (`Optional`): Python's `None`-or-value.
- `python_text.dfy` (`PyText`): the `str` built-ins the code relies on, written
  out with their properties. These are `split('\n')` and `'\n'.join`,
  `splitlines()`, `strip()`, `lower()`, string `>` and `str(int)`.
- `python_slice.dfy` (`PySlice`): the list slices `s[start:]` and `s[:stop]`,
  including negative bounds and clamping.
- `events.dfy` (`Events`): the stored event record and what the events file
  can hold.
- `webhook.dfy` (`Webhook`): `handle_webhook`.
  - `Handle` specifies it.
  - The class `EventsFile` models the file, and its method `HandleWebhook`
    does the read-append-truncate-write step by step. That method is proved
    equal to `Handle`.
- `queries.dfy` (`Queries`): `get_recent_actions_events` and
  `get_workflow_status`.
  - The reduction loop is the method `WorkflowStatuses`.
  - It is proved equal to the fold `StatusList`. The properties "one entry per
    name", "latest `updated_at` wins, earliest on ties" and "first-appearance
    order" are proved about that fold.
- `changes.dfy` (`Changes`): `analyze_file_changes`. Git is a parameter: a
  function from working directory and argument vector to the command's output
  and exit status, or to the exception it raised.
- `templates.dfy` (`Templates`): `TYPE_MAPPING` and `suggest_template`.

Notes on the code, which the model follows:

- The receiver rewrites `github_events.json` in place (webhook_server.py:50).
  It does not write a temporary file and rename it, so there is no
  no-torn-write guarantee. `WriteOutcome.Interrupted` models a write that
  fails after the file was truncated. `InterruptedWriteLosesHistory` shows
  that the next request then starts the log over.
- `get_workflow_status` lists workflows in the order of each name's first
  qualifying event (`ReduceFirstAppearance`, `StatusListNames`).
- Not every failure of `analyze_file_changes` is reported:
  - Every exception of the first two git commands, and their nonzero exit
    statuses, become an empty `files_changed` (server.py:130-135).
  - Nonzero exit statuses of the stat, diff and log commands are ignored.
  - The outer `CalledProcessError` handler (server.py:208-215) cannot be
    reached, because only the `check=True` calls raise it and those are
    caught at server.py:130.
  - The `JSONDecodeError` handler (server.py:226-232) cannot be reached,
    because `json.dumps` does not raise it.
- The log command runs without a timeout (server.py:177-182).
- A file that exists but cannot be decoded makes `get_recent_actions_events`
  and `get_workflow_status` raise (`ReadError`, `ReadFailed`). They do not
  treat it as empty.
- A payload whose `repository` or `sender` is not an object makes the receiver
  answer 500 "Internal server error". No validation error exists.
- `analyze_file_changes`'s docstring gives the defaults as `main`, `true` and
  `500`. The code's defaults are `"master"`, `False` and `5000`
  (server.py:64-69).
- `get_recent_actions_events`'s docstring gives the default limit as 10. The
  code's default is 3 (server.py:378, 382).

## Model

| member | source | states |
|---|---|---|
| PySlice.SliceFrom | server.py:391 | `s[start:]` is always a suffix of `s`, no longer than `s` |
| PySlice.SliceTo | server.py:119 | `s[:stop]` is always a prefix of `s` |
| PyText.Split | server.py:161 | `split('\n')` gives at least one piece and no piece holds a newline |
| PyText.JoinSplit | server.py:161-171 | joining the pieces of `split('\n')` with `'\n'` gives the text back |
| PyText.SplitJoin | server.py:166 | splitting a join of newline-free pieces gives those pieces back |
| PyText.JoinPrefix | server.py:166 | the join of the first m pieces is a prefix of the join of all pieces |
| PyText.Join | server.py:166 | `'\n'.join(pieces)` undoes `split('\n')` and is undone by it on newline-free pieces (`JoinSplit`, `SplitJoin`), and a join of the first pieces is a prefix (`JoinPrefix`) |
| PyText.SplitCount | server.py:161 | the number of pieces is the number of newlines plus one |
| PyText.SplitTrailingSeparator | server.py:161 | a trailing newline adds one empty piece |
| PyText.SplitLines | server.py:112 | no line of `splitlines()` holds a line-break character |
| PyText.SplitLinesIsSplit | server.py:112 | where '\n' is the only line break, `splitlines()` is `split('\n')` of the text without one final '\n', and [] for the empty text |
| PyText.Strip | server.py:112 | `strip()` is the one slice of the text that starts at its first non-space character, with only whitespace after it, and neither starts nor ends with whitespace; it keeps every non-space character |
| PyText.Lower | server.py:360 | `lower()` keeps the length, leaves no upper-case ASCII letter, keeps every other character, and turns each upper-case letter into the lower-case letter at the same place in the alphabet |
| PyText.LowerIdempotent | server.py:360 | lower-casing twice equals lower-casing once |
| PyText.StrLess | server.py:426 | `>` on `updated_at` strings: a proper prefix is smaller, and the greater string is never a prefix of (or equal to) the smaller; irreflexive, transitive and total (`StrLessIrreflexive`, `StrLessTransitive`, `StrLessTotal`) |
| PyText.StrLessIrreflexive | server.py:426 | no string is greater than itself |
| PyText.StrLessTransitive | server.py:426 | if a < b and b < c then a < c |
| PyText.StrLessTotal | server.py:426 | two distinct strings are ordered one way or the other |
| Webhook.NestedField | webhook_server.py:29-30 | `data.get(key, {}).get(field)` raises exactly when the value is not an object; a missing key gives null; an object gives its member |
| Webhook.MakeEvent | webhook_server.py:20-31 | building the event fails exactly when `repository` or `sender` is not an object; otherwise the event carries the capture time, the X-GitHub-Event header or "unknown", `action`, `workflow_run` and `check_run` unchanged, and `repository.full_name` and `sender.login` |
| Webhook.PriorEvents | webhook_server.py:33-42 | the prior events are missing (an exception) exactly when reading the file raises; a missing or undecodable file gives no events; a decoded file gives its events |
| Webhook.LastRetained | webhook_server.py:46 | `s[-100:]` has the smaller of 100 and the length of `s` elements |
| Webhook.Retain | webhook_server.py:45-46 | `append` then `events[-100:]` holds 1 to 100 events and ends with the new one; it equals `LastRetained` of the log plus the event (`RetainBounded`), the log plus the event below 100 (`RetainBelowBound`) and the last 99 prior events then the event at the bound (`RetainAtBound`) |
| Webhook.RetainBounded | webhook_server.py:45-46 | after an append the log holds 1 to 100 events and ends with the new event |
| Webhook.RetainBelowBound | webhook_server.py:45-46 | with fewer than 100 prior events the log is the prior log plus the new event |
| Webhook.RetainAtBound | webhook_server.py:45-46 | with 100 or more prior events the oldest are dropped: the last 99 prior events, in order, then the new event |
| Webhook.LastRetainedTwice | webhook_server.py:46 | keeping the last 100 and then the last 100 of that plus more equals keeping the last 100 of everything |
| Webhook.AppendAllKeepsLast | webhook_server.py:45-46 | any number of appends from a log of at most 100 events leave the last 100 of the old log followed by the new events |
| Webhook.Handle | webhook_server.py:14-73 | every request gets 200, 400 or 500; 200 exactly for success; 400 "Invalid JSON" exactly for a body that is not JSON; 500 "Failed to save event" exactly when the event was built and the file read but the write failed; every other 500 is "Internal server error"; 200 `{"status": "success"}` exactly when the body is an object, the event was built, the file was read and the write completed, so a body that is not an object, a `repository` or `sender` that is not an object and an unreadable file all answer 500 "Internal server error"; after a 200 the file holds 1 to 100 events, the last one stamped with the capture time; a write interrupted after opening leaves an undecodable file; every other failed request leaves the file as it was |
| Webhook.HandleSaves | webhook_server.py:33-53 | a request whose event can be built, against a readable file, is saved and appends its event to the prior log (empty for a missing or undecodable file) |
| Webhook.MissingOrCorruptStartsOver | webhook_server.py:34-42 | with a missing or undecodable file the saved log is exactly the new event |
| Webhook.BackToBack | webhook_server.py:45-51 | two requests saved one after the other both land in arrival order, behind the last events the file held, within 100 |
| Webhook.InterruptedWriteLosesHistory | webhook_server.py:34-60 | a write that fails after opening answers 500 "Failed to save event", and the next saved request finds the file undecodable and keeps only its own event |
| Webhook.EventsFile.ReadEvents | webhook_server.py:34-42 | reading gives no events for a missing or undecodable file and raises for an unreadable one |
| Webhook.EventsFile.Save | webhook_server.py:49-60 | a complete write stores the events and answers 200; a failed open keeps the file and answers 500; a write failing after opening leaves an undecodable file and answers 500 |
| Webhook.EventsFile.HandleWebhook | webhook_server.py:14-73 | the step-by-step handler gives the response and the new file contents that `Handle` specifies |
| Queries.RecentActionsEvents | server.py:384-392 | a missing file gives []; an undecodable or unreadable file raises; otherwise the result is a suffix of the stored events |
| Queries.RecentIsNegativeSlice | server.py:391 | `events[-limit:]`: for 0 < limit ≤ len(events) the last `limit` events in order; for limit 0 or limit ≥ len(events) all of them; for a negative limit all but the first -limit |
| Queries.StatusOf | server.py:427-434 | an entry carries the run's name and `updated_at` |
| Queries.RunsOf | server.py:411-414 | the kept runs are exactly the non-null `workflow_run`s of the events |
| Queries.RunsOfConcat | server.py:411-414 | the runs of two event lists in a row are the runs of the first, then those of the second: the events' order and multiplicity are kept |
| Queries.RunsOfOne | server.py:411-414 | one event gives its run, or nothing when its `workflow_run` is null |
| Queries.SelectedRuns | server.py:411-420 | the runs reduced are exactly the non-null runs of the events, narrowed to the given name when it is non-empty |
| Queries.Named | server.py:416-420 | the kept runs are exactly those with the given name |
| Queries.NamedConcat | server.py:416-420 | filtering two run lists in a row gives the kept runs of the first, then those of the second |
| Queries.NamedOne | server.py:416-420 | one run is kept exactly when it has the given name |
| Queries.Record | server.py:426-434 | one loop turn stores `StatusOf(run)` under the run's name when the name is new or the run's `updated_at` is strictly later than the stored one, and otherwise leaves the table exactly as it was; every other entry is unchanged and a new name is appended at the end of the key order (`RecordPreserves` keeps the table consistent) |
| Queries.RecordPreserves | server.py:423-434 | one turn of the loop keeps each name once, every entry under its own name, and adds the run's name |
| Queries.Reduce | server.py:422-434 | the dictionary after the loop is consistent and its keys are exactly the runs' names |
| Queries.Listing | server.py:436 | `list(workflows.values())` has one entry per key, the i-th named by the i-th inserted key; each entry is the dictionary's entry for its own name, and every entry of the dictionary is listed |
| Queries.FirstIndex | server.py:411-422 | the index of the first run carrying a name: no earlier run carries it, the run there does, and it is the number of runs when none does; this is what `ReduceFirstAppearance`'s "first-run order" means |
| Queries.LatestUnique | server.py:426 | at most one run is "the latest" for a name |
| Queries.ReduceLatestWins | server.py:423-434 | each entry holds the fields of the run with the greatest `updated_at` for its name, the earliest such run on ties |
| Queries.ReduceFirstAppearance | server.py:422-436 | the dictionary's keys are in the order of each name's first run |
| Queries.StatusList | server.py:422-436 | every entry is named by one of the runs' names, and no name is listed twice; one entry per name in first-run order (`StatusListNames`), each the status of that name's latest run (`StatusListLatest`) |
| Queries.StatusListNames | server.py:411-436 | the reply has one entry per distinct workflow name among the runs, each name once, in order of first appearance |
| Queries.StatusListLatest | server.py:423-436 | each reply entry is the status of the latest run of its name, the earliest on ties |
| Queries.TwoRunsOfOneWorkflow | server.py:426 | of two runs of one workflow, the second replaces the first only with a strictly greater `updated_at` |
| Queries.LaterUpdateWins | server.py:426 | of two runs of one workflow, the later `updated_at` is reported whatever their order |
| Queries.FilteredByName | server.py:416-420 | with a non-empty workflow name every entry carries that name |
| Queries.WorkflowStatuses | server.py:422-436 | the in-place dictionary loop returns the fold's list of statuses |
| Queries.GetWorkflowStatus | server.py:402-436 | a missing file or an empty log gives the "No GitHub Actions events received yet" message; an undecodable or unreadable file raises; otherwise the list of statuses of the selected runs |
| Queries.NoRunsOf | server.py:411-414 | events without a workflow run contribute no runs |
| Queries.NoRunsIsEmptyList | server.py:408-436 | a non-empty log without workflow runs gives the empty list, not the message |
| Changes.NameStatusCommand | server.py:118-125 | the status query gets at most the first 100 changed files, in order, after `--` |
| Changes.StrippedNonEmpty | server.py:112 | the result holds exactly the non-empty stripped lines |
| Changes.StrippedNonEmptyConcat | server.py:112 | the kept lines of two line lists in a row are those of the first, then those of the second: the lines' order and multiplicity are kept |
| Changes.StrippedNonEmptyOne | server.py:112 | one line gives its stripped text, or nothing when that is empty |
| Changes.ChangedFiles | server.py:112 | the changed files are exactly the non-empty stripped lines of the name-only output; none is empty or has whitespace at either end |
| Changes.ChangedFilesFirstLine | server.py:112-119 | the changed files of an output are those of its first line followed by those of the rest, so they come in output order and the first 100 of them reach the status query |
| Changes.FilesChanged | server.py:102-135 | `files_changed` is non-empty only when the changed-files command succeeded, named at least one file, and the status command on those files succeeded, and it is then that command's output; every failure gives "" (`FilesChangedCases`) |
| Changes.FilesChangedCases | server.py:102-135 | `files_changed` is the status output when both commands succeed and some file changed; it is "" when there is none or when either command raises or exits nonzero |
| Changes.TruncationNotice | server.py:167-168 | the notice read as lines is an end to the last kept line, one blank line, the "Showing M of N lines" line and the `max_diff_lines` hint |
| Changes.DiffSection | server.py:161-171 | the line count is the number of '\n'-split pieces (at least 1), and the diff is truncated exactly when that count exceeds `max_diff_lines` |
| Changes.DiffWithinLimit | server.py:164-171 | a diff within the limit is passed through unchanged, untruncated |
| Changes.DiffOverLimit | server.py:161-169 | over a limit M ≥ 1 the diff is a prefix of the output holding exactly its first M lines, followed by the notice "Showing M of N lines" and the `max_diff_lines` hint |
| Changes.DiffZeroLimit | server.py:164-169 | a limit of 0 keeps none of the diff, only the notice |
| Changes.DiffNegativeLimit | server.py:164-169 | a negative limit -k keeps all but the last k lines while the notice reports -k |
| Changes.TrailingNewlineCounts | server.py:161 | a trailing newline counts as one more line |
| Changes.TotalIsNewlinesPlusOne | server.py:161 | `total_diff_lines` is the number of newlines plus one |
| Changes.ErrorFor | server.py:199-256 | a timeout, a missing git, a permission error and any other exception each give a distinct error; a timeout's details name the timeout the command ran with; a permission error's details name the file; any other exception reports its type name and message with the call's context |
| Changes.WorkingDirectory | server.py:82-95 | the commands run in the given directory, else the first MCP root, else the process's directory; an empty given directory, or no given directory and no MCP root or one with an empty path, falls back to the process's directory |
| Changes.ListChangedFiles | server.py:102-135 | the first step gives the `files_changed` text `FilesChanged` specifies |
| Changes.TruncateDiff | server.py:161-171 | the truncation step gives the diff, flag and count `DiffSection` specifies |
| Changes.AnalyzeFileChanges | server.py:81-256 | the first of stat, diff (when asked) and log to raise decides the error record; otherwise the record holds the branch, `files_changed`, statistics, commits, and the diff section, or the "Diff not included" marker with `truncated` false and 0 lines |
| Templates.DefaultFiles | server.py:35-59 | one file name per default template, each named once, including "feature.md" and every file the mapping selects |
| Templates.TemplateFile | server.py:360 | `TYPE_MAPPING.get(change_type.lower(), "feature.md")`: always a default template (`TemplateFileIsDefault`), a key's own file for a key (`MappedKey`, `KeysAreLowerCase`), the same file for aliases (`Aliases`) and for any case (`CaseInsensitive`), "feature.md" otherwise (`UnknownTypeIsFeature`) |
| Templates.TemplateFileIsDefault | server.py:35-59 | every file a change type can select is a default template |
| Templates.EveryTemplateSelectable | server.py:35-59 | every default template is the one some change type of the mapping selects |
| Templates.KeysAreLowerCase | server.py:45-59 | every key of the mapping is lower case, so the change type spelled as a key selects that key's file |
| Templates.MappedKey | server.py:45-59 | a change type spelled as a mapping key selects that key's file |
| Templates.Aliases | server.py:45-59 | bug/fix, feature/enhancement, docs/documentation, refactor/cleanup, test/testing and performance/optimization select the same file; security selects security.md |
| Templates.CaseInsensitive | server.py:360 | the case of the change type does not change the selection |
| Templates.UnknownTypeIsFeature | server.py:360 | an unmapped change type selects "feature.md" |
| Templates.FirstWithFile | server.py:361-364 | the index found is the first entry with that file name |
| Templates.SelectTemplate | server.py:361-364 | the selection is a catalog entry; it has the wanted file name when any entry does, and otherwise is the first entry |
| Templates.SelectsFirstMatch | server.py:361-364 | no entry before the selected one has the wanted file name |
| Templates.SuggestTemplate | server.py:346-373 | a listing error is returned unchanged; an empty catalog gives "No templates available"; otherwise the suggestion is the catalog entry `SelectTemplate` picks for the mapped file (the first with that file name, else the first entry), with its content and the usage hint |
| Templates.FullCatalogSelectsMappedFile | server.py:284-301 | with every default template loaded the suggestion always has the mapped file |

## Left out

- Logging (logger.py and every `logger` call). webhook_server.py:10 imports
  `get_logger`, which is commented out at logger.py:105-117. The handler is
  modelled as written, regardless of that import.
- Running git, its wall-clock timeouts and the MCP root lookup
  (server.py:82-95). The runner and the root are parameters of
  `Changes.AnalyzeFileChanges`.
- Reading the template directory (`get_pr_templates`, server.py:259-334).
  The listing it returns is an input of `Templates.SuggestTemplate`.
- JSON parsing and serialisation, including `json.dumps(..., indent=2)`.
  Replies are records, not JSON text.
- Webhook.Body: a request body that is not valid UTF-8 has no case of its
  own. `request.json()` then raises `UnicodeDecodeError`, which is not a
  `JSONDecodeError`, so the receiver answers 500, not 400
  (webhook_server.py:17, 68). The model's `NotAnObject` case gives the same
  500 reply and leaves the file alone, but it is not named for this path.
- aiohttp routing and the app lifecycle (webhook_server.py:75-102), tool and
  prompt registration, and the prompt texts (server.py:440-564).
- Concurrent access to the events file by the receiver and the tools. Each
  call is modelled on its own. Two near-simultaneous appends can lose one,
  and the model does not capture that.
- `datetime.utcnow().isoformat()`: the capture time is the parameter `now`.
- `os.getcwd()`: the process's directory is the parameter `processCwd`.
- Events.WorkflowRun: a `workflow_run` payload is typed with the six fields
  the status tool reads. A payload missing `name`, `status`, `run_number`,
  `updated_at` or `html_url` is not modelled; the tool would raise
  `KeyError`. A non-string `updated_at` is not modelled either; it would give
  `TypeError` or a different ordering.
- Events.StoredLog: a file that decodes to JSON other than a list is not
  modelled. Only the receiver writes the file, and it always writes a list.
- PyText.Lower: lower-cases ASCII letters only. For the template lookup this
  selects the same file as Python's full Unicode `lower()`. Every mapping key
  is ASCII and contains no `k`. The only non-ASCII characters whose lower
  case is an ASCII letter are U+212A (to `k`) and U+0130 (to `i` followed by
  U+0307).
- Changes.AnalyzeFileChanges: exceptions raised before the first git command
  are not modelled, for example `os.getcwd()` failing. The log command runs
  without a timeout (server.py:177-182), so in the source it never raises
  `TimeoutExpired`. The runner parameter is not constrained, though, and may
  still report a timeout for it. The model then gives a timeout record whose
  details say "None seconds"; the source never produces that record.
- Changes.ErrorFor: the `JSONDecodeError` and `CalledProcessError` records of
  server.py:208-232 are not produced. Neither handler can be reached.

=== FILE: changes.dfy ===
/** `analyze_file_changes`: how the outputs of the git commands it runs become
    the tool's report, and how a failing command is reported. Running git is
    not modelled: the runner is a parameter that maps a working directory and
    an argument vector to what the command gave. */
module Changes {
  import opened Optional
  import opened PySlice
  import opened PyText

  /** How many changed files the status command is given at most. */
  const StatusFileLimit: int := 100

  /** An exception `subprocess.run` raises: `TimeoutExpired`,
      `FileNotFoundError`, `PermissionError` (with the file it names, `None`
      when it names none), or any other exception, by type name and message. */
  datatype RunError =
    | TimedOut
    | GitNotFound
    | PermissionDenied(filename: Option<string>)
    | Other(typeName: string, message: string)

  /** What one git command gave: its standard output and exit status, or the
      exception raised while running it. */
  datatype GitRun = Completed(stdout: string, exitCode: int) | Raised(error: RunError)

  /** A git runner: working directory and argument vector to outcome. */
  type Git = (string, seq<string>) -> GitRun

  // ---------------------------------------------------------------------------
  // The commands

  function NameOnlyCommand(base: string): seq<string>
  {
    ["git", "diff", "--name-only", base + "..HEAD"]
  }

  /** The status query: the changed files go after `--`, the first 100 at most. */
  function NameStatusCommand(base: string, files: seq<string>): (cmd: seq<string>)
    ensures |cmd| >= 6
    ensures cmd[..6] == ["git", "diff", "--name-status", "--no-renames", base + "..HEAD", "--"]
    ensures cmd[6..] <= files
    ensures |cmd| - 6 == if |files| <= StatusFileLimit then |files| else StatusFileLimit
  {
    ["git", "diff", "--name-status", "--no-renames", base + "..HEAD", "--"] + SliceTo(files, StatusFileLimit)
  }

  function StatCommand(base: string): seq<string>
  {
    ["git", "diff", "--stat", base + "...HEAD"]
  }

  function DiffCommand(base: string): seq<string>
  {
    ["git", "diff", base + "...HEAD"]
  }

  function LogCommand(base: string): seq<string>
  {
    ["git", "log", "--oneline", base + "..HEAD"]
  }

  // ---------------------------------------------------------------------------
  // Changed files

  /** Some line strips to `f`. */
  predicate StripsTo(lines: seq<string>, f: string)
  {
    exists l :: l in lines && Strip(l) == f
  }

  /** The stripped lines that are not empty, in order. */
  function StrippedNonEmpty(lines: seq<string>): (files: seq<string>)
    ensures |files| <= |lines|
    ensures forall f :: f in files <==> f != "" && StripsTo(lines, f)
  {
    if lines == [] then []
    else
      var rest := StrippedNonEmpty(lines[1..]);
      assert forall l :: l in lines <==> l == lines[0] || l in lines[1..];
      var f := Strip(lines[0]);
      if f != "" then [f] + rest else rest
  }

  /** The changed files named in the output of the name-only command. */
  function ChangedFiles(stdout: string): (files: seq<string>)
    ensures forall f :: f in files ==> f != "" && !IsSpace(f[0]) && !IsSpace(f[|f| - 1])
    ensures forall f :: f in files <==> f != "" && StripsTo(SplitLines(stdout), f)
  {
    var files := StrippedNonEmpty(SplitLines(stdout));
    assert forall f :: f in files ==> exists l :: Strip(l) == f;
    files
  }

  /** `StrippedNonEmpty` keeps the lines' order: it distributes over
      concatenation, and one line gives its stripped text unless that is empty. */
  lemma {:induction false} StrippedNonEmptyConcat(a: seq<string>, b: seq<string>)
    ensures StrippedNonEmpty(a + b) == StrippedNonEmpty(a) + StrippedNonEmpty(b)
    decreases |a|
  {
    if a == [] {
      assert a + b == b;
    } else {
      var ab := a + b;
      assert ab[0] == a[0] && ab[1..] == a[1..] + b;
      StrippedNonEmptyConcat(a[1..], b);
    }
  }

  /** One line gives its stripped text, or nothing when that is empty. */
  lemma StrippedNonEmptyOne(line: string)
    ensures StrippedNonEmpty([line]) == if Strip(line) != "" then [Strip(line)] else []
  {
    assert [line][1..] == [];
  }

  /** The changed files of an output are those of its first line, then those
      of the rest, in that order. */
  lemma ChangedFilesFirstLine(line: string, rest: string)
    requires forall i :: 0 <= i < |line| ==> !IsLineBreak(line[i])
    ensures ChangedFiles(line + "\n" + rest) == StrippedNonEmpty([line]) + ChangedFiles(rest)
  {
    var s := line + "\n" + rest;
    assert s[..|line|] == line && s[|line| + 1..] == rest;
    assert FirstLineBreak(s) == |line| by {
      assert s[|line|] == '\n';
      assert IsLineBreak('\n');
    }
    assert SplitLines(s) == [line] + SplitLines(rest);
    StrippedNonEmptyConcat([line], SplitLines(rest));
  }

  /** The `files_changed` text: the output of the status query for the
      changed files, or "" when there are none or when either command raises
      or exits with a nonzero status (`check=True` turns that into an
      exception, and the first step catches every exception). */
  function FilesChanged(git: Git, cwd: string, base: string): (r: string)
    ensures r != "" ==>
              var first := git(cwd, NameOnlyCommand(base));
              && first.Completed? && first.exitCode == 0 && ChangedFiles(first.stdout) != []
              && var second := git(cwd, NameStatusCommand(base, ChangedFiles(first.stdout)));
                 second.Completed? && second.exitCode == 0 && r == second.stdout
  {
    match git(cwd, NameOnlyCommand(base))
    case Raised(_) => ""
    case Completed(names, code) =>
      if code != 0 then ""
      else
        var files := ChangedFiles(names);
        if files == [] then ""
        else
          match git(cwd, NameStatusCommand(base, files))
          case Raised(_) => ""
          case Completed(status, code') => if code' != 0 then "" else status
  }

  /** `files_changed` is the status output exactly when both commands succeed
      and at least one changed file is named; every failure gives "". */
  lemma FilesChangedCases(git: Git, cwd: string, base: string)
    ensures var r := FilesChanged(git, cwd, base);
            var first := git(cwd, NameOnlyCommand(base));
            && (first.Raised? || first.exitCode != 0 ==> r == "")
            && (first.Completed? && first.exitCode == 0 && ChangedFiles(first.stdout) == [] ==> r == "")
            && (first.Completed? && first.exitCode == 0 && ChangedFiles(first.stdout) != [] ==>
                  var second := git(cwd, NameStatusCommand(base, ChangedFiles(first.stdout)));
                  r == (if second.Completed? && second.exitCode == 0 then second.stdout else ""))
  {
  }

  // ---------------------------------------------------------------------------
  // Diff truncation

  /** The two lines appended to a truncated diff. */
  function TruncationNotice(shown: int, total: int): (notice: string)
    ensures Split(notice, '\n')
              == ["", "", "... Output truncated. Showing " + IntToStr(shown) + " of " + IntToStr(total) + " lines ...",
                  "... Use max_diff_lines parameter to see more ..."]
  {
    var counts := "... Output truncated. Showing " + IntToStr(shown) + " of " + IntToStr(total) + " lines ...";
    var hint := "... Use max_diff_lines parameter to see more ...";
    NoticeLines(counts, hint);
    "\n\n" + counts + "\n" + hint
  }

  /** A blank line, then two lines without breaks, read back as four pieces. */
  lemma NoticeLines(counts: string, hint: string)
    requires '\n' !in counts && '\n' !in hint
    ensures Split("\n\n" + counts + "\n" + hint, '\n') == ["", "", counts, hint]
  {
    SplitNoSeparator(hint, '\n');
    SplitAfterPiece(counts, hint, '\n');
    SplitAfterPiece("", counts + "\n" + hint, '\n');
    SplitAfterPiece("", "" + "\n" + (counts + "\n" + hint), '\n');
    assert "\n\n" + counts + "\n" + hint == "" + "\n" + ("" + "\n" + (counts + "\n" + hint));
  }

  /** The `diff`, `truncated` and `total_diff_lines` fields for a diff output. */
  datatype DiffPart = DiffPart(content: string, truncated: bool, totalLines: nat)

  /** Split on '\n'; over `maxDiffLines` pieces, keep `lines[:maxDiffLines]`,
      joined again, followed by the notice. */
  function DiffSection(stdout: string, maxDiffLines: int): (d: DiffPart)
    ensures d.totalLines == |Split(stdout, '\n')| >= 1
    ensures d.truncated <==> d.totalLines > maxDiffLines
  {
    var lines := Split(stdout, '\n');
    if |lines| > maxDiffLines then
      DiffPart(Join(SliceTo(lines, maxDiffLines), '\n') + TruncationNotice(maxDiffLines, |lines|), true, |lines|)
    else DiffPart(stdout, false, |lines|)
  }

  /** A diff of at most `maxDiffLines` pieces is passed through unchanged. */
  lemma DiffWithinLimit(stdout: string, maxDiffLines: int)
    requires |Split(stdout, '\n')| <= maxDiffLines
    ensures DiffSection(stdout, maxDiffLines) == DiffPart(stdout, false, |Split(stdout, '\n')|)
  {
  }

  /** Over the limit M (with M >= 1), the diff shows a prefix of the output that
      holds exactly its first M lines, then the notice "Showing M of N lines". */
  lemma DiffOverLimit(stdout: string, maxDiffLines: int)
    requires 1 <= maxDiffLines < |Split(stdout, '\n')|
    ensures var d := DiffSection(stdout, maxDiffLines);
            var pieces := Split(stdout, '\n');
            exists shown :: shown <= stdout
              && Split(shown, '\n') == pieces[..maxDiffLines]
              && d == DiffPart(shown + TruncationNotice(maxDiffLines, |pieces|), true, |pieces|)
  {
    var pieces := Split(stdout, '\n');
    var kept := pieces[..maxDiffLines];
    var shown := Join(kept, '\n');
    assert SliceTo(pieces, maxDiffLines) == kept;
    assert forall i :: 0 <= i < |kept| ==> kept[i] == pieces[i];
    SplitJoin(kept, '\n');
    JoinPrefix(pieces, maxDiffLines, '\n');
    JoinSplit(stdout, '\n');
  }

  /** A limit of 0 shows none of the output, only the notice. */
  lemma DiffZeroLimit(stdout: string)
    ensures DiffSection(stdout, 0).content == TruncationNotice(0, |Split(stdout, '\n')|)
  {
    assert SliceTo(Split(stdout, '\n'), 0) == [];
  }

  /** A negative limit -k keeps all but the last k pieces, while the notice
      reports the negative number it was given. */
  lemma DiffNegativeLimit(stdout: string, maxDiffLines: int)
    requires maxDiffLines < 0 && -maxDiffLines <= |Split(stdout, '\n')|
    ensures var pieces := Split(stdout, '\n');
            DiffSection(stdout, maxDiffLines).content
              == Join(pieces[..|pieces| + maxDiffLines], '\n') + TruncationNotice(maxDiffLines, |pieces|)
  {
  }

  /** A trailing newline is one more piece, so it counts as an extra line. */
  lemma TrailingNewlineCounts(stdout: string, maxDiffLines: int)
    ensures DiffSection(stdout + "\n", maxDiffLines).totalLines == DiffSection(stdout, maxDiffLines).totalLines + 1
  {
    SplitTrailingSeparator(stdout, '\n');
  }

  /** The total is one more than the number of newlines in the output. */
  lemma TotalIsNewlinesPlusOne(stdout: string, maxDiffLines: int)
    ensures DiffSection(stdout, maxDiffLines).totalLines == Count(stdout, '\n') + 1
  {
    SplitCount(stdout, '\n');
  }

  // ---------------------------------------------------------------------------
  // The report

  /** The record the tool serialises on success. */
  datatype Analysis = Analysis(
    baseBranch: string,
    filesChanged: string,
    statistics: string,
    commits: string,
    diff: string,
    truncated: bool,
    totalDiffLines: nat)

  const DiffNotIncluded: string := "Diff not included (set include_diff=true to see full diff)"

  /** The third field of an error record: a suggested solution, or (for an
      unexpected exception) the call's arguments. */
  datatype ErrorExtra =
    | Solution(text: string)
    | Context(baseBranch: string, workingDirectory: string, includeDiff: bool, maxDiffLines: int)

  datatype ErrorRecord = ErrorRecord(error: string, details: string, extra: ErrorExtra)

  datatype Report = Analyzed(analysis: Analysis) | Failed(record: ErrorRecord)

  /** An optional name as an f-string shows it: the text, or "None". */
  function ShowOptional(s: Option<string>): string
  {
    match s
    case None => "None"
    case Some(v) => v
  }

  /** The error record an exception from the stat, diff or log command gives.
      `timeout` is the timeout that command ran with (the log command has none). */
  function ErrorFor(e: RunError, timeout: Option<int>, base: string, cwd: string,
                    includeDiff: bool, maxDiffLines: int): (r: ErrorRecord)
    ensures e.TimedOut? <==> r.error == "Git command timeout"
    ensures e.GitNotFound? <==> r.error == "Git not found"
    ensures e.PermissionDenied? <==> r.error == "Permission denied"
    ensures e.Other? <==> r.extra.Context?
    ensures e.Other? ==> r.extra == Context(base, cwd, includeDiff, maxDiffLines)
                         && r.error == "Unexpected " + e.typeName && r.details == e.message
    ensures e.TimedOut? && timeout.Some? ==>
              r.details == "Git command timed out after " + IntToStr(timeout.value)
                           + " seconds. The repository might be too large or the diff too complex."
    ensures e.PermissionDenied? ==> r.details == "Permission denied when accessing " + ShowOptional(e.filename)
  {
    match e
    case TimedOut =>
      ErrorRecord("Git command timeout",
        "Git command timed out after " + (if timeout.Some? then IntToStr(timeout.value) else "None")
        + " seconds. The repository might be too large or the diff too complex.",
        Solution("Try with a higher timeout value using the 'command_timeout' parameter"))
    case GitNotFound =>
      ErrorRecord("Git not found",
        "Git command not found. Make sure Git is installed and in your PATH.",
        Solution("Please install Git and ensure it's available in your system PATH"))
    case PermissionDenied(filename) =>
      ErrorRecord("Permission denied",
        "Permission denied when accessing " + ShowOptional(filename),
        Solution("Check file permissions and ensure the application has the necessary access rights"))
    case Other(typeName, message) =>
      assert ("Unexpected " + typeName)[0] == 'U';
      ErrorRecord("Unexpected " + typeName, message, Context(base, cwd, includeDiff, maxDiffLines))
  }

  /** The directory the commands run in: the given one, else the first MCP
      root (`None` when that lookup fails), else the process's own directory
      when the result is missing or empty. */
  function WorkingDirectory(workingDirectory: Option<string>, root: Option<string>, processCwd: string): (cwd: string)
    ensures workingDirectory.Some? && workingDirectory.value != "" ==> cwd == workingDirectory.value
    ensures workingDirectory.None? && root.Some? && root.value != "" ==> cwd == root.value
    ensures workingDirectory == Some("") ==> cwd == processCwd
    ensures workingDirectory.None? && (root.None? || root.value == "") ==> cwd == processCwd
    ensures cwd != processCwd ==> (workingDirectory.Some? && cwd == workingDirectory.value)
                                  || (workingDirectory.None? && root.Some? && cwd == root.value)
  {
    var wd := if workingDirectory.None? then root else workingDirectory;
    if wd.Some? && wd.value != "" then wd.value else processCwd
  }

  /** The first step (changed files), with each exception it catches ending
      the step with an empty text. */
  method ListChangedFiles(git: Git, cwd: string, baseBranch: string) returns (filesChanged: string)
    ensures filesChanged == FilesChanged(git, cwd, baseBranch)
  {
    filesChanged := "";
    var names := git(cwd, NameOnlyCommand(baseBranch));
    if names.Completed? && names.exitCode == 0 {
      var files := ChangedFiles(names.stdout);
      if files != [] {
        var status := git(cwd, NameStatusCommand(baseBranch, files));
        if status.Completed? && status.exitCode == 0 {
          filesChanged := status.stdout;
        }
      }
    }
  }

  /** The notice appended in two steps, as the truncation step writes it. */
  lemma NoticeAppended(kept: string, shown: int, total: int)
    ensures kept + "\n\n" + ("... Output truncated. Showing " + IntToStr(shown) + " of " + IntToStr(total) + " lines ...")
            + "\n" + "... Use max_diff_lines parameter to see more ..."
            == kept + TruncationNotice(shown, total)
  {
  }

  /** The truncation step, on the diff output. */
  method TruncateDiff(stdout: string, maxDiffLines: int) returns (diffContent: string, truncated: bool, totalDiffLines: nat)
    ensures DiffPart(diffContent, truncated, totalDiffLines) == DiffSection(stdout, maxDiffLines)
  {
    var diffLines := Split(stdout, '\n');
    totalDiffLines := |diffLines|;
    truncated := false;
    if |diffLines| > maxDiffLines {
      var kept := Join(SliceTo(diffLines, maxDiffLines), '\n');
      var shown, total := IntToStr(maxDiffLines), IntToStr(|diffLines|);
      diffContent := kept;
      diffContent := diffContent + "\n\n" + ("... Output truncated. Showing " + shown + " of " + total + " lines ...");
      diffContent := diffContent + "\n" + "... Use max_diff_lines parameter to see more ...";
      NoticeAppended(kept, maxDiffLines, |diffLines|);
      truncated := true;
    } else {
      diffContent := stdout;
    }
  }

  /** `analyze_file_changes`: the changed files, then the stat, diff and log
      commands in order, the first of those three to raise ending the call
      with its error record. */
  method AnalyzeFileChanges(git: Git, baseBranch: string, includeDiff: bool, maxDiffLines: int,
                            workingDirectory: Option<string>, root: Option<string>,
                            processCwd: string, commandTimeout: int)
    returns (report: Report)
    ensures var cwd := WorkingDirectory(workingDirectory, root, processCwd);
            var stat := git(cwd, StatCommand(baseBranch));
            var diff := git(cwd, DiffCommand(baseBranch));
            var log := git(cwd, LogCommand(baseBranch));
            && (stat.Raised? ==>
                  report == Failed(ErrorFor(stat.error, Some(commandTimeout), baseBranch, cwd, includeDiff, maxDiffLines)))
            && (stat.Completed? && includeDiff && diff.Raised? ==>
                  report == Failed(ErrorFor(diff.error, Some(commandTimeout), baseBranch, cwd, includeDiff, maxDiffLines)))
            && (stat.Completed? && (!includeDiff || diff.Completed?) && log.Raised? ==>
                  report == Failed(ErrorFor(log.error, None, baseBranch, cwd, includeDiff, maxDiffLines)))
            && (stat.Completed? && includeDiff && diff.Completed? && log.Completed? ==>
                  var d := DiffSection(diff.stdout, maxDiffLines);
                  report == Analyzed(Analysis(baseBranch, FilesChanged(git, cwd, baseBranch), stat.stdout,
                                              log.stdout, d.content, d.truncated, d.totalLines)))
            && (stat.Completed? && !includeDiff && log.Completed? ==>
                  report == Analyzed(Analysis(baseBranch, FilesChanged(git, cwd, baseBranch), stat.stdout,
                                              log.stdout, DiffNotIncluded, false, 0)))
  {
    var cwd := WorkingDirectory(workingDirectory, root, processCwd);
    var filesChanged := ListChangedFiles(git, cwd, baseBranch);

    var stat := git(cwd, StatCommand(baseBranch));
    if stat.Raised? {
      return Failed(ErrorFor(stat.error, Some(commandTimeout), baseBranch, cwd, includeDiff, maxDiffLines));
    }

    var diffContent := "";
    var truncated := false;
    var totalDiffLines := 0;
    if includeDiff {
      var diff := git(cwd, DiffCommand(baseBranch));
      if diff.Raised? {
        return Failed(ErrorFor(diff.error, Some(commandTimeout), baseBranch, cwd, includeDiff, maxDiffLines));
      }
      diffContent, truncated, totalDiffLines := TruncateDiff(diff.stdout, maxDiffLines);
    }

    var log := git(cwd, LogCommand(baseBranch));
    if log.Raised? {
      return Failed(ErrorFor(log.error, None, baseBranch, cwd, includeDiff, maxDiffLines));
    }

    report := Analyzed(Analysis(baseBranch, filesChanged, stat.stdout, log.stdout,
                                if includeDiff then diffContent else DiffNotIncluded,
                                truncated, if includeDiff then totalDiffLines else 0));
  }
}

=== FILE: events.dfy ===
/** The records the webhook receiver stores and the query tools read back. */
module Events {
  import opened Optional

  /** A JSON value, for payload parts that are passed through untouched. */
  datatype Json =
    | JNull
    | JBool(b: bool)
    | JInt(i: int)
    | JStr(s: string)
    | JArray(items: seq<Json>)
    | JObject(members: seq<(string, Json)>)

  /** A `workflow_run` payload: the six fields the status query reads, and the
      rest of the payload object, which is stored but never read. */
  datatype WorkflowRun = WorkflowRun(
    name: string,
    status: string,
    conclusion: Option<string>,
    runNumber: int,
    updatedAt: string,
    htmlUrl: string,
    rest: Json)

  /** One received webhook, as appended to the events file. `action`,
      `checkRun`, `repository` and `sender` are `JNull` where the payload had
      nothing; `workflowRun` is `None` then. */
  datatype Event = Event(
    timestamp: string,
    eventType: string,
    action: Json,
    workflowRun: Option<WorkflowRun>,
    checkRun: Json,
    repository: Json,
    sender: Json)

  /** What the events file holds: nothing (no file), text that does not decode
      as JSON (for one, what an interrupted write leaves), a file that cannot be
      opened or read as text (its bytes are not valid UTF-8), or the decoded
      list of events. */
  datatype StoredLog = NoFile | Undecodable | Unreadable | Stored(events: seq<Event>)
}

=== FILE: optional.dfy ===
/** Python's `None`-or-value, as a datatype. */
module Optional {
  datatype Option<T> = None | Some(value: T)
}

=== FILE: python_slice.dfy ===
/** Python's list slicing with one bound, `s[start:]` and `s[:stop]`, where a
    negative bound counts from the end and every bound is clamped to the list. */
module PySlice {

  /** The index a Python slice bound denotes in a list of length `n`. */
  function Clamp(bound: int, n: nat): (i: nat)
    ensures i <= n
  {
    if bound < 0 then (if bound + n < 0 then 0 else bound + n)
    else if bound > n then n
    else bound
  }

  /** `s[start:]`: always a suffix of `s`. */
  function SliceFrom<T>(s: seq<T>, start: int): (r: seq<T>)
    ensures |r| <= |s| && r == s[|s| - |r|..]
  {
    s[Clamp(start, |s|)..]
  }

  /** `s[:stop]`: always a prefix of `s`. */
  function SliceTo<T>(s: seq<T>, stop: int): (r: seq<T>)
    ensures r <= s
  {
    s[..Clamp(stop, |s|)]
  }
}

=== FILE: python_text.dfy ===
/** The few Python string builtins the server relies on, on `seq<char>`:
    `str.split('\n')`, `'\n'.join`, `str.splitlines()`, `str.strip()`,
    `str.lower()` (on ASCII), the `>` comparison of two strings and `str(int)`. */
module PyText {

  // ---------------------------------------------------------------------------
  // split on one separator character, and join

  /** `s.split(sep)` for a one-character separator: the pieces between
      separators, in order; there is always at least one piece. */
  function Split(s: string, sep: char): (pieces: seq<string>)
    ensures |pieces| >= 1
    ensures forall i :: 0 <= i < |pieces| ==> sep !in pieces[i]
    decreases |s|
  {
    if s == [] then [""]
    else
      var tail := Split(s[1..], sep);
      if s[0] == sep then [""] + tail
      else [[s[0]] + tail[0]] + tail[1..]
  }

  /** `sep.join(parts)`. */
  function Join(parts: seq<string>, sep: char): string
  {
    if |parts| == 0 then ""
    else if |parts| == 1 then parts[0]
    else parts[0] + [sep] + Join(parts[1..], sep)
  }

  /** Number of occurrences of `c` in `s`. */
  function Count(s: string, c: char): nat
  {
    if s == [] then 0 else (if s[0] == c then 1 else 0) + Count(s[1..], c)
  }

  /** Joining the pieces of a split gives back the original text. */
  lemma {:induction false} JoinSplit(s: string, sep: char)
    ensures Join(Split(s, sep), sep) == s
    decreases |s|
  {
    if s != [] {
      var tail := Split(s[1..], sep);
      JoinSplit(s[1..], sep);
      if s[0] == sep {
        assert ([""] + tail)[1..] == tail;
      } else {
        var p := [[s[0]] + tail[0]] + tail[1..];
        if |tail| > 1 {
          assert p[1..] == tail[1..];
        }
      }
    }
  }

  /** A piece with no separator in front of some text extends the first piece of that text. */
  lemma {:induction false} SplitPrefix(p: string, x: string, sep: char)
    requires sep !in p
    ensures Split(p + x, sep) == [p + Split(x, sep)[0]] + Split(x, sep)[1..]
    decreases |p|
  {
    if p != [] {
      assert (p + x)[1..] == p[1..] + x;
      assert (p + x)[0] == p[0];
      SplitPrefix(p[1..], x, sep);
      var tail := Split(p[1..] + x, sep);
      assert tail[0] == p[1..] + Split(x, sep)[0];
      assert tail[1..] == Split(x, sep)[1..];
      assert Split(p + x, sep) == [[p[0]] + tail[0]] + tail[1..];
      assert [p[0]] + (p[1..] + Split(x, sep)[0]) == p + Split(x, sep)[0];
    } else {
      assert p + x == x;
      assert p + Split(x, sep)[0] == Split(x, sep)[0];
    }
  }

  /** Splitting a join of separator-free parts gives back the parts. */
  lemma {:induction false} SplitJoin(parts: seq<string>, sep: char)
    requires |parts| >= 1
    requires forall i :: 0 <= i < |parts| ==> sep !in parts[i]
    ensures Split(Join(parts, sep), sep) == parts
    decreases |parts|
  {
    if |parts| == 1 {
      SplitPrefix(parts[0], "", sep);
      assert parts[0] + "" == parts[0];
    } else {
      var rest := Join(parts[1..], sep);
      SplitJoin(parts[1..], sep);
      assert parts[0] + [sep] + rest == parts[0] + ([sep] + rest);
      SplitPrefix(parts[0], [sep] + rest, sep);
      assert ([sep] + rest)[1..] == rest;
      assert Split([sep] + rest, sep) == [""] + parts[1..];
      assert parts[0] + "" == parts[0];
      assert [parts[0]] + parts[1..] == parts;
    }
  }

  /** The join of the first `m` parts is a prefix of the join of all of them. */
  lemma {:induction false} JoinPrefix(parts: seq<string>, m: nat, sep: char)
    requires m <= |parts|
    ensures Join(parts[..m], sep) <= Join(parts, sep)
    decreases |parts|
  {
    if m > 0 && |parts| > 1 {
      if m == 1 {
        assert parts[..1] == [parts[0]];
      } else {
        JoinPrefix(parts[1..], m - 1, sep);
        assert parts[..m][1..] == parts[1..][..m - 1];
      }
    } else if m > 0 {
      assert parts[..m] == parts;
    }
  }

  /** Each separator adds one piece: the piece count is one more than the separator count. */
  lemma {:induction false} SplitCount(s: string, sep: char)
    ensures |Split(s, sep)| == Count(s, sep) + 1
    decreases |s|
  {
    if s != [] {
      SplitCount(s[1..], sep);
    }
  }

  /** A trailing separator yields one more, empty, piece. */
  lemma {:induction false} SplitTrailingSeparator(x: string, sep: char)
    ensures Split(x + [sep], sep) == Split(x, sep) + [""]
    decreases |x|
  {
    if x == [] {
      assert Split([sep], sep) == [""] + Split([], sep);
    } else {
      assert (x + [sep])[1..] == x[1..] + [sep];
      SplitTrailingSeparator(x[1..], sep);
    }
  }

  // ---------------------------------------------------------------------------
  // splitlines and strip

  /** The characters at which Python's `str.splitlines()` breaks a line. */
  predicate IsLineBreak(c: char)
  {
    c as int in {0x0A, 0x0B, 0x0C, 0x0D, 0x1C, 0x1D, 0x1E, 0x85, 0x2028, 0x2029}
  }

  /** The characters Python's `str.isspace()` accepts, which `str.strip()` removes. */
  predicate IsSpace(c: char)
  {
    var n := c as int;
    (0x09 <= n <= 0x0D) || (0x1C <= n <= 0x20) || n == 0x85 || n == 0xA0 || n == 0x1680
    || (0x2000 <= n <= 0x200A) || n == 0x2028 || n == 0x2029 || n == 0x202F
    || n == 0x205F || n == 0x3000
  }

  /** Index of the first line break in `s`, or `|s|` when there is none. */
  function FirstLineBreak(s: string): (k: nat)
    ensures k <= |s|
    ensures k < |s| ==> IsLineBreak(s[k])
    ensures forall i :: 0 <= i < k ==> !IsLineBreak(s[i])
  {
    if s == [] then 0 else if IsLineBreak(s[0]) then 0 else 1 + FirstLineBreak(s[1..])
  }

  /** `s.splitlines()`: the lines of `s` without their breaks; `"\r\n"` is one
      break, and a break at the very end does not start another line. */
  function SplitLines(s: string): (lines: seq<string>)
    ensures forall i, c :: 0 <= i < |lines| && c in lines[i] ==> !IsLineBreak(c)
    decreases |s|
  {
    if s == [] then []
    else
      var k := FirstLineBreak(s);
      if k == |s| then [s]
      else
        var width := if s[k] == '\r' && k + 1 < |s| && s[k + 1] == '\n' then 2 else 1;
        [s[..k]] + SplitLines(s[k + width..])
  }

  /** No character of `s` is a line break other than '\n'. */
  predicate OnlyNewlineBreaks(s: string)
  {
    forall i :: 0 <= i < |s| && IsLineBreak(s[i]) ==> s[i] == '\n'
  }

  /** Text without a separator is one piece. */
  lemma SplitNoSeparator(p: string, sep: char)
    requires sep !in p
    ensures Split(p, sep) == [p]
  {
    SplitPrefix(p, "", sep);
    assert p + "" == p;
  }

  /** A separator-free piece followed by a separator is the first piece. */
  lemma SplitAfterPiece(p: string, x: string, sep: char)
    requires sep !in p
    ensures Split(p + [sep] + x, sep) == [p] + Split(x, sep)
  {
    assert p + [sep] + x == p + ([sep] + x);
    SplitPrefix(p, [sep] + x, sep);
    assert ([sep] + x)[1..] == x;
    assert Split([sep] + x, sep) == [""] + Split(x, sep);
    assert p + "" == p;
  }

  /** A text without line breaks holds no '\n'. */
  lemma NoBreakNoNewline(s: string)
    requires FirstLineBreak(s) == |s|
    ensures '\n' !in s
  {
    forall i | 0 <= i < |s| ensures s[i] != '\n' {
      assert !IsLineBreak(s[i]);
    }
  }

  /** Where '\n' is the only line break, `splitlines()` takes the text up to
      the first '\n' as a line and goes on after it. */
  lemma SplitLinesStep(s: string)
    requires OnlyNewlineBreaks(s) && FirstLineBreak(s) < |s|
    ensures var k := FirstLineBreak(s);
            && s[k] == '\n' && '\n' !in s[..k]
            && SplitLines(s) == [s[..k]] + SplitLines(s[k + 1..])
            && OnlyNewlineBreaks(s[k + 1..])
  {
    var k := FirstLineBreak(s);
    assert FirstLineBreak(s[..k]) == |s[..k]|;
    NoBreakNoNewline(s[..k]);
    var rest := s[k + 1..];
    forall i | 0 <= i < |rest| && IsLineBreak(rest[i]) ensures rest[i] == '\n' {
      assert rest[i] == s[k + 1 + i];
    }
  }

  /** The text without one final '\n', if it ends in one. */
  function Chomp(s: string): (c: string)
    ensures c <= s && |s| - 1 <= |c|
    ensures c != s <==> s != [] && s[|s| - 1] == '\n'
  {
    if s != [] && s[|s| - 1] == '\n' then s[..|s| - 1] else s
  }

  /** A final '\n' after more text is dropped from that text. */
  lemma ChompAfterPiece(p: string, rest: string)
    requires rest != []
    ensures Chomp(p + ['\n'] + rest) == p + ['\n'] + Chomp(rest)
  {
    var s := p + ['\n'] + rest;
    assert s[|s| - 1] == rest[|rest| - 1];
    if rest[|rest| - 1] == '\n' {
      assert s[..|s| - 1] == p + ['\n'] + rest[..|rest| - 1];
    }
  }

  /** One step of `SplitLinesIsSplit`: a first line, a '\n', and more text. */
  lemma SplitLinesCons(p: string, rest: string)
    requires '\n' !in p && rest != []
    requires SplitLines(p + ['\n'] + rest) == [p] + SplitLines(rest)
    requires SplitLines(rest) == Split(Chomp(rest), '\n')
    ensures SplitLines(p + ['\n'] + rest) == Split(Chomp(p + ['\n'] + rest), '\n')
  {
    ChompAfterPiece(p, rest);
    SplitAfterPiece(p, Chomp(rest), '\n');
  }

  /** Where '\n' is the only line break, `splitlines()` is `split('\n')`
      without the empty piece a final '\n' would add. */
  lemma {:induction false} SplitLinesIsSplit(s: string)
    requires OnlyNewlineBreaks(s)
    ensures s == [] ==> SplitLines(s) == []
    ensures s != [] ==> SplitLines(s) == Split(Chomp(s), '\n')
    decreases |s|
  {
    if s != [] {
      var k := FirstLineBreak(s);
      if k == |s| {
        NoBreakNoNewline(s);
        SplitNoSeparator(s, '\n');
      } else if k == |s| - 1 {
        SplitLinesStep(s);
        assert s[k + 1..] == [];
        SplitNoSeparator(s[..k], '\n');
      } else {
        SplitLinesStep(s);
        var p, rest := s[..k], s[k + 1..];
        assert s == p + ['\n'] + rest;
        SplitLinesIsSplit(rest);
        SplitLinesCons(p, rest);
      }
    }
  }

  /** How many whitespace characters `s` starts with. */
  function LeadingSpace(s: string): (n: nat)
    ensures n <= |s|
    ensures forall j :: 0 <= j < n ==> IsSpace(s[j])
    ensures n == |s| || !IsSpace(s[n])
  {
    if s == [] || !IsSpace(s[0]) then 0 else 1 + LeadingSpace(s[1..])
  }

  /** Where the trailing whitespace of `s` starts. */
  function TrailingSpace(s: string): (k: nat)
    ensures k <= |s|
    ensures forall j :: k <= j < |s| ==> IsSpace(s[j])
    ensures k == 0 || !IsSpace(s[k - 1])
  {
    if s == [] || !IsSpace(s[|s| - 1]) then |s| else TrailingSpace(s[..|s| - 1])
  }

  /** `s.strip()`: the one slice of `s` between its leading and its trailing
      whitespace. */
  function Strip(s: string): (r: string)
    ensures r == [] || (!IsSpace(r[0]) && !IsSpace(r[|r| - 1]))
    ensures var n := LeadingSpace(s);
            && n + |r| <= |s| && r == s[n..n + |r|]
            && forall j :: n + |r| <= j < |s| ==> IsSpace(s[j])
    ensures forall c :: c in r ==> c in s
    ensures forall c :: c in s && !IsSpace(c) ==> c in r
  {
    var n, k := LeadingSpace(s), TrailingSpace(s);
    if n == |s| then
      StripKeepsNonSpace(s, [], n);
      []
    else
      assert n < k;
      SliceMembers(s, n, k);
      StripKeepsNonSpace(s, s[n..k], n);
      s[n..k]
  }

  /** A slice holds only characters of the text it is cut from. */
  lemma SliceMembers(s: string, i: nat, j: nat)
    requires i <= j <= |s|
    ensures forall c :: c in s[i..j] ==> c in s
  {
    forall c | c in s[i..j] ensures c in s {
      var k :| 0 <= k < j - i && s[i..j][k] == c;
      assert s[i + k] == c;
    }
  }

  /** A slice with only whitespace around it keeps every non-space character
      of the text. */
  lemma StripKeepsNonSpace(s: string, r: string, d: nat)
    requires d + |r| <= |s| && r == s[d..d + |r|]
    requires forall j :: 0 <= j < d ==> IsSpace(s[j])
    requires forall j :: d + |r| <= j < |s| ==> IsSpace(s[j])
    ensures forall c :: c in s && !IsSpace(c) ==> c in r
  {
    forall c | c in s && !IsSpace(c) ensures c in r {
      var i :| 0 <= i < |s| && s[i] == c;
      assert d <= i < d + |r|;
      assert r[i - d] == c;
    }
  }

  // ---------------------------------------------------------------------------
  // lower-casing

  /** One character of `str.lower()`, on the ASCII letters. */
  function LowerChar(c: char): char
  {
    if 'A' <= c <= 'Z' then (c as int + 32) as char else c
  }

  /** `s.lower()` on the ASCII letters; every other character is kept. */
  function Lower(s: string): (r: string)
    ensures |r| == |s|
    ensures forall i :: 0 <= i < |r| ==> !('A' <= r[i] <= 'Z')
    ensures forall i :: 0 <= i < |s| && !('A' <= s[i] <= 'Z') ==> r[i] == s[i]
    ensures forall i :: 0 <= i < |s| && 'A' <= s[i] <= 'Z' ==> 'a' <= r[i] <= 'z' && r[i] as int - 'a' as int == s[i] as int - 'A' as int
  {
    seq(|s|, i requires 0 <= i < |s| => LowerChar(s[i]))
  }

  /** Lower-casing twice is lower-casing once. */
  lemma LowerIdempotent(s: string)
    ensures Lower(Lower(s)) == Lower(s)
  {
    assert forall i :: 0 <= i < |s| ==> LowerChar(LowerChar(s[i])) == LowerChar(s[i]);
  }

  /** Text without upper-case ASCII letters is its own lower case. */
  lemma LowerOfLowerCase(s: string)
    requires forall i :: 0 <= i < |s| ==> !('A' <= s[i] <= 'Z')
    ensures Lower(s) == s
  {
    assert forall i :: 0 <= i < |s| ==> Lower(s)[i] == s[i];
  }

  // ---------------------------------------------------------------------------
  // string ordering

  /** `a < b` on Python strings: lexicographic order of code points, where a
      proper prefix is smaller. */
  predicate StrLess(a: string, b: string): (less: bool)
    ensures a < b ==> less
    ensures less ==> !(b <= a)
  {
    if a == [] then b != []
    else if b == [] then false
    else if a[0] != b[0] then a[0] < b[0]
    else StrLess(a[1..], b[1..])
  }

  /** No string is smaller than itself. */
  lemma {:induction false} StrLessIrreflexive(a: string)
    ensures !StrLess(a, a)
    decreases |a|
  {
    if a != [] {
      StrLessIrreflexive(a[1..]);
    }
  }

  /** The order is transitive. */
  lemma {:induction false} StrLessTransitive(a: string, b: string, c: string)
    requires StrLess(a, b) && StrLess(b, c)
    ensures StrLess(a, c)
    decreases |a|
  {
    if a != [] && b != [] && c != [] && a[0] == b[0] && b[0] == c[0] {
      StrLessTransitive(a[1..], b[1..], c[1..]);
    }
  }

  /** Any two different strings are ordered one way or the other. */
  lemma {:induction false} StrLessTotal(a: string, b: string)
    ensures a == b || StrLess(a, b) || StrLess(b, a)
    decreases |a|
  {
    if a != [] && b != [] && a[0] == b[0] {
      StrLessTotal(a[1..], b[1..]);
      if a[1..] == b[1..] {
        assert a == [a[0]] + a[1..] && b == [b[0]] + b[1..];
      }
    }
  }

  // ---------------------------------------------------------------------------
  // decimal formatting

  function DigitChar(d: nat): (c: char)
    requires d < 10
    ensures '0' <= c <= '9'
  {
    ('0' as int + d) as char
  }

  /** `str(n)` for a natural number: its decimal digits. */
  function NatToStr(n: nat): (r: string)
    ensures r != [] && forall c :: c in r ==> '0' <= c <= '9'
    decreases n
  {
    if n < 10 then [DigitChar(n)] else NatToStr(n / 10) + [DigitChar(n % 10)]
  }

  /** `str(i)`, and what an f-string substitutes for an integer. */
  function IntToStr(i: int): (r: string)
    ensures r != [] && forall c :: c in r ==> c == '-' || '0' <= c <= '9'
  {
    if i < 0 then "-" + NatToStr(-i) else NatToStr(i)
  }
}

=== FILE: queries.dfy ===
/** The two tools that read the events file: the most recent events, and one
    current status per workflow name. */
module Queries {
  import opened Optional
  import opened Events
  import opened PySlice
  import opened PyText

  // ---------------------------------------------------------------------------
  // get_recent_actions_events

  /** The tool's reply: a list of events, or the error raised when the file
      exists but cannot be opened or decoded. */
  datatype EventsReply = Listed(events: seq<Event>) | ReadError

  /** `events[-limit:]` of the stored events; `[]` when there is no file. */
  function RecentActionsEvents(stored: StoredLog, limit: int): (r: EventsReply)
    ensures stored == NoFile ==> r == Listed([])
    ensures r == ReadError <==> stored == Undecodable || stored == Unreadable
    ensures stored.Stored? ==> r.Listed? && |r.events| <= |stored.events|
                               && r.events == stored.events[|stored.events| - |r.events|..]
  {
    match stored
    case NoFile => Listed([])
    case Undecodable => ReadError
    case Unreadable => ReadError
    case Stored(events) => Listed(SliceFrom(events, -limit))
  }

  /** What `events[-limit:]` keeps, by the sign of `limit`: the last `limit`
      events (all when there are fewer), all of them for 0, and all but the
      first `-limit` for a negative limit. */
  lemma RecentIsNegativeSlice(events: seq<Event>, limit: int)
    ensures var r := RecentActionsEvents(Stored(events), limit).events;
            && (0 < limit <= |events| ==> r == events[|events| - limit..])
            && (limit == 0 || limit >= |events| ==> r == events)
            && (limit < 0 ==> r == events[if -limit < |events| then -limit else |events|..])
  {
  }

  // ---------------------------------------------------------------------------
  // get_workflow_status

  /** One entry of the status reply. */
  datatype WorkflowStatus = WorkflowStatus(
    name: string,
    status: string,
    conclusion: Option<string>,
    runNumber: int,
    updatedAt: string,
    htmlUrl: string)

  function StatusOf(run: WorkflowRun): (s: WorkflowStatus)
    ensures s.name == run.name && s.updatedAt == run.updatedAt
  {
    WorkflowStatus(run.name, run.status, run.conclusion, run.runNumber, run.updatedAt, run.htmlUrl)
  }

  /** The tool's reply: the "No GitHub Actions events received yet" message,
      a list of statuses, or the error raised when the file cannot be read. */
  datatype StatusReply = NoEventsYet | Statuses(entries: seq<WorkflowStatus>) | ReadFailed

  /** Python truthiness of the optional workflow name. */
  predicate Truthy(name: Option<string>)
  {
    name.Some? && name.value != ""
  }

  /** Some event carries the run `r`. */
  predicate CarriesRun(events: seq<Event>, r: WorkflowRun)
  {
    exists e :: e in events && e.workflowRun == Some(r)
  }

  /** The non-null `workflow_run` payloads of the events, in order. */
  function RunsOf(events: seq<Event>): (runs: seq<WorkflowRun>)
    ensures |runs| <= |events|
    ensures forall r :: r in runs <==> CarriesRun(events, r)
  {
    if events == [] then []
    else
      var rest := RunsOf(events[1..]);
      assert forall e :: e in events <==> e == events[0] || e in events[1..];
      match events[0].workflowRun
      case None => rest
      case Some(r) => [r] + rest
  }

  /** `RunsOf` keeps the events' order: it distributes over concatenation, and
      one event gives its run, or nothing when it has none. */
  lemma {:induction false} RunsOfConcat(a: seq<Event>, b: seq<Event>)
    ensures RunsOf(a + b) == RunsOf(a) + RunsOf(b)
    decreases |a|
  {
    if a == [] {
      assert a + b == b;
    } else {
      var ab := a + b;
      assert ab[0] == a[0] && ab[1..] == a[1..] + b;
      RunsOfConcat(a[1..], b);
    }
  }

  /** One event gives its run, or nothing when it has none. */
  lemma RunsOfOne(e: Event)
    ensures RunsOf([e]) == if e.workflowRun.Some? then [e.workflowRun.value] else []
  {
    assert [e][1..] == [];
  }

  /** The runs carrying exactly the name `name`, in order. */
  function Named(runs: seq<WorkflowRun>, name: string): (named: seq<WorkflowRun>)
    ensures |named| <= |runs|
    ensures forall r :: r in named <==> r in runs && r.name == name
  {
    if runs == [] then []
    else
      var rest := Named(runs[1..], name);
      assert forall r :: r in runs <==> r == runs[0] || r in runs[1..];
      if runs[0].name == name then [runs[0]] + rest else rest
  }

  /** `Named` keeps the runs' order: it distributes over concatenation. */
  lemma {:induction false} NamedConcat(a: seq<WorkflowRun>, b: seq<WorkflowRun>, name: string)
    ensures Named(a + b, name) == Named(a, name) + Named(b, name)
    decreases |a|
  {
    if a == [] {
      assert a + b == b;
    } else {
      var ab := a + b;
      assert ab[0] == a[0] && ab[1..] == a[1..] + b;
      NamedConcat(a[1..], b, name);
    }
  }

  /** One run is kept exactly when it has the name. */
  lemma NamedOne(r: WorkflowRun, name: string)
    ensures Named([r], name) == if r.name == name then [r] else []
  {
    assert [r][1..] == [];
  }

  /** The runs the status query reduces: every non-null run, narrowed to the
      requested name when one is given. */
  function SelectedRuns(events: seq<Event>, workflowName: Option<string>): (runs: seq<WorkflowRun>)
    ensures forall r :: r in runs <==> CarriesRun(events, r) && (Truthy(workflowName) ==> r.name == workflowName.value)
  {
    if Truthy(workflowName) then Named(RunsOf(events), workflowName.value) else RunsOf(events)
  }

  /** The `workflows` dictionary: its keys in insertion order, and its entries. */
  datatype Table = Table(order: seq<string>, entries: map<string, WorkflowStatus>)

  /** The dictionary's keys are listed once each, and every entry is filed
      under its own name. */
  ghost predicate Consistent(t: Table)
  {
    && (forall i :: 0 <= i < |t.order| ==> t.order[i] in t.entries)
    && (forall n :: n in t.entries ==> n in t.order)
    && (forall i, j :: 0 <= i < j < |t.order| ==> t.order[i] != t.order[j])
    && (forall n :: n in t.entries ==> t.entries[n].name == n)
  }

  /** One turn of the loop: a new name is added at the end; a known name is
      replaced only by a strictly later `updated_at`. */
  function Record(t: Table, run: WorkflowRun): (t': Table)
    ensures run.name in t'.entries
    ensures forall n :: n in t.entries && n != run.name ==> n in t'.entries && t'.entries[n] == t.entries[n]
    ensures t'.order == (if run.name in t.entries then t.order else t.order + [run.name])
    ensures run.name in t.entries && t'.entries[run.name] != t.entries[run.name] ==>
              StrLess(t.entries[run.name].updatedAt, run.updatedAt) && t'.entries[run.name] == StatusOf(run)
    ensures run.name !in t.entries || StrLess(t.entries[run.name].updatedAt, run.updatedAt) ==>
              t'.entries[run.name] == StatusOf(run)
    ensures run.name in t.entries && !StrLess(t.entries[run.name].updatedAt, run.updatedAt) ==> t' == t
  {
    if run.name !in t.entries then
      Table(t.order + [run.name], t.entries[run.name := StatusOf(run)])
    else if StrLess(t.entries[run.name].updatedAt, run.updatedAt) then
      Table(t.order, t.entries[run.name := StatusOf(run)])
    else t
  }

  /** The names the runs carry. */
  function Names(runs: seq<WorkflowRun>): set<string>
  {
    set r | r in runs :: r.name
  }

  /** A turn of the loop keeps the dictionary consistent and adds the run's name. */
  lemma RecordPreserves(t: Table, run: WorkflowRun)
    requires Consistent(t)
    ensures Consistent(Record(t, run))
    ensures Record(t, run).entries.Keys == t.entries.Keys + {run.name}
  {
    var t' := Record(t, run);
    if run.name !in t.entries {
      forall i, j | 0 <= i < j < |t'.order| ensures t'.order[i] != t'.order[j] {
        if j == |t.order| {
          assert t.order[i] in t.entries;
        } else {
          assert t'.order[i] == t.order[i] && t'.order[j] == t.order[j];
        }
      }
      forall n | n in t'.entries ensures n in t'.order {
        if n != run.name {
          assert n in t.order;
        } else {
          assert t'.order[|t.order|] == n;
        }
      }
    }
  }

  /** The names of the runs are those of all but the last, and the last's. */
  lemma NamesLast(runs: seq<WorkflowRun>)
    requires runs != []
    ensures Names(runs) == Names(runs[..|runs| - 1]) + {runs[|runs| - 1].name}
  {
    var p, r := runs[..|runs| - 1], runs[|runs| - 1];
    assert runs == p + [r];
    assert forall x :: x in runs <==> x in p || x == r;
  }

  /** The dictionary after the loop has seen every run. */
  function Reduce(runs: seq<WorkflowRun>): (t: Table)
    ensures Consistent(t)
    ensures t.entries.Keys == Names(runs)
    decreases |runs|
  {
    if runs == [] then Table([], map[])
    else
      var p := runs[..|runs| - 1];
      var r := runs[|runs| - 1];
      RecordPreserves(Reduce(p), r);
      NamesLast(runs);
      Record(Reduce(p), r)
  }

  /** `list(workflows.values())`: the entries in the order their keys were added. */
  function Listing(t: Table): (entries: seq<WorkflowStatus>)
    requires Consistent(t)
    ensures |entries| == |t.order|
    ensures forall i :: 0 <= i < |entries| ==> entries[i].name == t.order[i]
    ensures forall i :: 0 <= i < |entries| ==> entries[i].name in t.entries && entries[i] == t.entries[entries[i].name]
    ensures forall n :: n in t.entries ==> t.entries[n] in entries
  {
    seq(|t.order|, i requires 0 <= i < |t.order| => t.entries[t.order[i]])
  }

  /** Index of the first run named `n`, or `|runs|` when there is none. */
  function FirstIndex(runs: seq<WorkflowRun>, n: string): (k: nat)
    ensures k <= |runs|
    ensures k < |runs| ==> runs[k].name == n
    ensures forall i :: 0 <= i < k ==> runs[i].name != n
  {
    if runs == [] then 0 else if runs[0].name == n then 0 else 1 + FirstIndex(runs[1..], n)
  }

  /** Run `w` is the one whose fields the entry for `n` holds: it has the
      greatest `updated_at` among the runs named `n`, and every earlier run
      named `n` has a strictly smaller one (on ties the earliest wins). */
  ghost predicate IsLatest(runs: seq<WorkflowRun>, n: string, w: int)
  {
    && 0 <= w < |runs| && runs[w].name == n
    && (forall j :: 0 <= j < |runs| && runs[j].name == n ==> !StrLess(runs[w].updatedAt, runs[j].updatedAt))
    && (forall j :: 0 <= j < w && runs[j].name == n ==> StrLess(runs[j].updatedAt, runs[w].updatedAt))
  }

  /** At most one run is the latest for a name. */
  lemma LatestUnique(runs: seq<WorkflowRun>, n: string, w1: int, w2: int)
    requires IsLatest(runs, n, w1) && IsLatest(runs, n, w2)
    ensures w1 == w2
  {
  }

  /** A run of another name leaves the latest run of `n` as it was. */
  lemma LatestOtherName(p: seq<WorkflowRun>, r: WorkflowRun, n: string, w: int)
    requires IsLatest(p, n, w) && r.name != n
    ensures IsLatest(p + [r], n, w)
  {
    var q := p + [r];
    assert forall j :: 0 <= j < |p| ==> q[j] == p[j];
  }

  /** A run of `n` that is not strictly later leaves the latest run as it was. */
  lemma LatestNotLater(p: seq<WorkflowRun>, r: WorkflowRun, n: string, w: int)
    requires IsLatest(p, n, w) && r.name == n && !StrLess(p[w].updatedAt, r.updatedAt)
    ensures IsLatest(p + [r], n, w)
  {
    var q := p + [r];
    assert forall j :: 0 <= j < |p| ==> q[j] == p[j];
    assert q[|p|] == r;
  }

  /** A run of `n` that is strictly later than the latest one becomes the latest. */
  lemma LatestLater(p: seq<WorkflowRun>, r: WorkflowRun, n: string, w: int)
    requires IsLatest(p, n, w) && r.name == n && StrLess(p[w].updatedAt, r.updatedAt)
    ensures IsLatest(p + [r], n, |p|)
  {
    var q := p + [r];
    assert forall j :: 0 <= j < |p| ==> q[j] == p[j];
    assert q[|p|] == r;
    StrLessIrreflexive(r.updatedAt);
    forall j | 0 <= j < |p| && p[j].name == n
      ensures StrLess(p[j].updatedAt, r.updatedAt)
    {
      StrLessTotal(p[j].updatedAt, p[w].updatedAt);
      if StrLess(p[j].updatedAt, p[w].updatedAt) {
        StrLessTransitive(p[j].updatedAt, p[w].updatedAt, r.updatedAt);
      }
    }
    forall j | 0 <= j < |p| && p[j].name == n
      ensures !StrLess(r.updatedAt, p[j].updatedAt)
    {
      if StrLess(r.updatedAt, p[j].updatedAt) {
        StrLessTransitive(r.updatedAt, p[j].updatedAt, r.updatedAt);
      }
    }
  }

  /** The first run of a name is its latest so far. */
  lemma LatestFirstRun(p: seq<WorkflowRun>, r: WorkflowRun, n: string)
    requires r.name == n && n !in Names(p)
    ensures IsLatest(p + [r], n, |p|)
  {
    var q := p + [r];
    assert q[|p|] == r;
    StrLessIrreflexive(r.updatedAt);
    forall j | 0 <= j < |p| ensures q[j].name != n {
      assert q[j] == p[j] && p[j] in p;
    }
  }

  /** Each entry of the dictionary holds the fields of the latest run of its name. */
  lemma {:induction false} ReduceLatestWins(runs: seq<WorkflowRun>, n: string) returns (w: nat)
    requires n in Reduce(runs).entries
    ensures IsLatest(runs, n, w) && Reduce(runs).entries[n] == StatusOf(runs[w])
    decreases |runs|
  {
    var m := |runs| - 1;
    var p, r := runs[..m], runs[m];
    assert runs == p + [r];
    var t := Reduce(p);
    assert Reduce(runs) == Record(t, r);
    if n != r.name {
      w := ReduceLatestWins(p, n);
      LatestOtherName(p, r, n, w);
    } else if n !in t.entries {
      w := m;
      LatestFirstRun(p, r, n);
    } else {
      var v := ReduceLatestWins(p, n);
      if StrLess(t.entries[n].updatedAt, r.updatedAt) {
        w := m;
        LatestLater(p, r, n, v);
      } else {
        w := v;
        LatestNotLater(p, r, n, v);
      }
    }
  }

  /** A name that no run carries has no first run. */
  lemma FirstIndexAbsent(runs: seq<WorkflowRun>, n: string)
    requires n !in Names(runs)
    ensures FirstIndex(runs, n) == |runs|
  {
    forall i | 0 <= i < |runs| ensures runs[i].name != n {
      assert runs[i] in runs;
    }
  }

  /** Appending a run keeps the first run of every name that had one, and makes
      the new run the first of its name otherwise. */
  lemma {:induction false} FirstIndexExtend(p: seq<WorkflowRun>, r: WorkflowRun, n: string)
    ensures FirstIndex(p, n) < |p| ==> FirstIndex(p + [r], n) == FirstIndex(p, n)
    ensures FirstIndex(p, n) == |p| && r.name == n ==> FirstIndex(p + [r], n) == |p|
    decreases |p|
  {
    if p == [] {
      assert [] + [r] == [r];
    } else {
      assert (p + [r])[0] == p[0];
      assert (p + [r])[1..] == p[1..] + [r];
      FirstIndexExtend(p[1..], r, n);
    }
  }

  /** The keys of the dictionary are in the order of each name's first run. */
  ghost predicate InFirstRunOrder(runs: seq<WorkflowRun>, order: seq<string>)
  {
    && (forall a :: 0 <= a < |order| ==> FirstIndex(runs, order[a]) < |runs|)
    && (forall a, b :: 0 <= a < b < |order| ==> FirstIndex(runs, order[a]) < FirstIndex(runs, order[b]))
  }

  /** A run appended after the names already listed keeps them in order. */
  lemma FirstRunOrderKept(p: seq<WorkflowRun>, r: WorkflowRun, order: seq<string>)
    requires InFirstRunOrder(p, order)
    ensures InFirstRunOrder(p + [r], order)
  {
    forall a | 0 <= a < |order|
      ensures FirstIndex(p + [r], order[a]) == FirstIndex(p, order[a])
    {
      FirstIndexExtend(p, r, order[a]);
    }
  }

  /** The name of an appended run with a new name goes last. */
  lemma FirstRunOrderNewName(p: seq<WorkflowRun>, r: WorkflowRun, order: seq<string>)
    requires InFirstRunOrder(p, order) && r.name !in Names(p)
    ensures InFirstRunOrder(p + [r], order + [r.name])
  {
    FirstRunOrderKept(p, r, order);
    FirstIndexAbsent(p, r.name);
    FirstIndexExtend(p, r, r.name);
    var order' := order + [r.name];
    forall a | 0 <= a < |order| ensures FirstIndex(p + [r], order'[a]) < |p| {
      assert order'[a] == order[a];
      FirstIndexExtend(p, r, order[a]);
    }
    assert order'[|order|] == r.name;
  }

  /** The dictionary's keys are in the order of each name's first run. */
  lemma {:induction false} ReduceFirstAppearance(runs: seq<WorkflowRun>)
    ensures InFirstRunOrder(runs, Reduce(runs).order)
    decreases |runs|
  {
    if runs != [] {
      var m := |runs| - 1;
      var p, r := runs[..m], runs[m];
      assert runs == p + [r];
      ReduceFirstAppearance(p);
      var t := Reduce(p);
      assert Reduce(runs) == Record(t, r);
      if r.name !in t.entries {
        FirstRunOrderNewName(p, r, t.order);
      } else {
        FirstRunOrderKept(p, r, t.order);
      }
    }
  }

  /** The statuses the loop produces, in the tool's order. */
  function StatusList(runs: seq<WorkflowRun>): (s: seq<WorkflowStatus>)
    ensures forall i :: 0 <= i < |s| ==> s[i].name in Names(runs)
    ensures forall i, j :: 0 <= i < j < |s| ==> s[i].name != s[j].name
  {
    Listing(Reduce(runs))
  }

  /** One entry per distinct workflow name among the runs, each name once, in
      order of the name's first run. */
  lemma StatusListNames(runs: seq<WorkflowRun>)
    ensures var s := StatusList(runs);
            && (set i | 0 <= i < |s| :: s[i].name) == Names(runs)
            && (forall i, j :: 0 <= i < j < |s| ==> s[i].name != s[j].name)
            && (forall i, j :: 0 <= i < j < |s| ==> FirstIndex(runs, s[i].name) < FirstIndex(runs, s[j].name))
  {
    var t := Reduce(runs);
    var s := StatusList(runs);
    ReduceFirstAppearance(runs);
    assert forall i :: 0 <= i < |s| ==> s[i].name == t.order[i];
    forall n | n in Names(runs) ensures n in (set i | 0 <= i < |s| :: s[i].name) {
      assert n in t.entries;
      var i :| 0 <= i < |t.order| && t.order[i] == n;
      assert s[i].name == n;
    }
  }

  /** Each entry holds the fields of the run with the greatest `updated_at`
      for its name, the earliest such run on ties. */
  lemma StatusListLatest(runs: seq<WorkflowRun>, i: nat) returns (w: nat)
    requires i < |StatusList(runs)|
    ensures IsLatest(runs, StatusList(runs)[i].name, w)
    ensures StatusList(runs)[i] == StatusOf(runs[w])
  {
    var t := Reduce(runs);
    w := ReduceLatestWins(runs, t.order[i]);
  }

  /** Two runs of one workflow: the second replaces the first only when its
      `updated_at` is strictly greater, so on a tie the first is reported. */
  lemma TwoRunsOfOneWorkflow(x: WorkflowRun, y: WorkflowRun)
    requires x.name == y.name
    ensures StatusList([x, y]) == [StatusOf(if StrLess(x.updatedAt, y.updatedAt) then y else x)]
  {
    var n := x.name;
    assert [x, y][..1] == [x];
    assert [x][..0] == [];
    assert Reduce([x]) == Table([n], map[n := StatusOf(x)]);
    var t := Reduce([x, y]);
    assert t.order == [n];
  }

  /** Two runs of one workflow, in either order: the later `updated_at` is reported. */
  lemma LaterUpdateWins(a: WorkflowRun, b: WorkflowRun)
    requires a.name == b.name && StrLess(a.updatedAt, b.updatedAt)
    ensures StatusList([a, b]) == [StatusOf(b)]
    ensures StatusList([b, a]) == [StatusOf(b)]
  {
    TwoRunsOfOneWorkflow(a, b);
    TwoRunsOfOneWorkflow(b, a);
    if StrLess(b.updatedAt, a.updatedAt) {
      StrLessTransitive(a.updatedAt, b.updatedAt, a.updatedAt);
      StrLessIrreflexive(a.updatedAt);
    }
  }

  /** With a name given, every reported entry carries that name. */
  lemma FilteredByName(events: seq<Event>, name: string)
    requires name != ""
    ensures forall s :: s in StatusList(SelectedRuns(events, Some(name))) ==> s.name == name
  {
    var runs := SelectedRuns(events, Some(name));
    StatusListNames(runs);
    forall s | s in StatusList(runs) ensures s.name == name {
      var i :| 0 <= i < |StatusList(runs)| && StatusList(runs)[i] == s;
      assert s.name in Names(runs);
    }
  }

  /** The dictionary after one more run is one more turn of the loop. */
  lemma ReduceStep(runs: seq<WorkflowRun>, i: nat)
    requires i < |runs|
    ensures Reduce(runs[..i + 1]) == Record(Reduce(runs[..i]), runs[i])
  {
    assert runs[..i + 1][..i] == runs[..i];
  }

  /** The loop of `get_workflow_status` over the selected runs. */
  method WorkflowStatuses(runs: seq<WorkflowRun>) returns (statuses: seq<WorkflowStatus>)
    ensures statuses == StatusList(runs)
  {
    var order: seq<string> := [];
    var workflows: map<string, WorkflowStatus> := map[];
    for i := 0 to |runs|
      invariant Table(order, workflows) == Reduce(runs[..i])
    {
      ghost var before := Table(order, workflows);
      var run := runs[i];
      if run.name !in workflows || StrLess(workflows[run.name].updatedAt, run.updatedAt) {
        if run.name !in workflows {
          order := order + [run.name];
        }
        workflows := workflows[run.name := StatusOf(run)];
      }
      assert Table(order, workflows) == Record(before, run);
      ReduceStep(runs, i);
    }
    assert runs[..|runs|] == runs;
    statuses := Listing(Table(order, workflows));
  }

  /** `get_workflow_status(workflow_name)` over what the events file holds. */
  method GetWorkflowStatus(stored: StoredLog, workflowName: Option<string>) returns (reply: StatusReply)
    ensures stored == NoFile || stored == Stored([]) ==> reply == NoEventsYet
    ensures stored == Undecodable || stored == Unreadable ==> reply == ReadFailed
    ensures stored.Stored? && stored.events != [] ==>
              reply == Statuses(StatusList(SelectedRuns(stored.events, workflowName)))
  {
    match stored {
      case NoFile => return NoEventsYet;
      case Undecodable => return ReadFailed;
      case Unreadable => return ReadFailed;
      case Stored(events) =>
        if events == [] {
          return NoEventsYet;
        }
        var runs := SelectedRuns(events, workflowName);
        var statuses := WorkflowStatuses(runs);
        return Statuses(statuses);
    }
  }

  /** Events without a workflow run contribute no runs. */
  lemma {:induction false} NoRunsOf(events: seq<Event>)
    requires forall e :: e in events ==> e.workflowRun.None?
    ensures RunsOf(events) == []
  {
    if events != [] {
      assert events[0] in events;
      assert forall e :: e in events[1..] ==> e in events;
      NoRunsOf(events[1..]);
    }
  }

  /** A log whose events carry no workflow run gives an empty list, not the
      "no events yet" message. */
  lemma NoRunsIsEmptyList(events: seq<Event>, workflowName: Option<string>)
    requires events != []
    requires forall e :: e in events ==> e.workflowRun.None?
    ensures StatusList(SelectedRuns(events, workflowName)) == []
  {
    NoRunsOf(events);
    assert SelectedRuns(events, workflowName) == [];
  }
}

=== FILE: templates.dfy ===
/** `suggest_template`: from a change type to a pull-request template of the
    catalog. The catalog itself (read from the templates directory) is an input. */
module Templates {
  import opened PyText

  /** One catalog entry: file name, human-readable type, and the file's text. */
  datatype Template = Template(filename: string, kind: string, content: string)

  /** The template files the catalog is read from, with their types, in order. */
  const DefaultTemplates: seq<(string, string)> := [
    ("bug.md", "Bug Fix"),
    ("feature.md", "Feature"),
    ("docs.md", "Documentation"),
    ("refactor.md", "Refactor"),
    ("test.md", "Test"),
    ("performance.md", "Performance"),
    ("security.md", "Security")
  ]

  /** Change types (lower-case) and the template file each one selects. */
  const TypeMapping: map<string, string> := map[
    "bug" := "bug.md",
    "fix" := "bug.md",
    "feature" := "feature.md",
    "enhancement" := "feature.md",
    "docs" := "docs.md",
    "documentation" := "docs.md",
    "refactor" := "refactor.md",
    "cleanup" := "refactor.md",
    "test" := "test.md",
    "testing" := "test.md",
    "performance" := "performance.md",
    "optimization" := "performance.md",
    "security" := "security.md"
  ]

  const FallbackFile: string := "feature.md"

  /** The file names of the default templates: one per template, each named
      once, and holding every file the mapping selects. */
  function DefaultFiles(): (files: seq<string>)
    ensures |files| == |DefaultTemplates|
    ensures forall i, j :: 0 <= i < j < |files| ==> files[i] != files[j]
    ensures FallbackFile in files
    ensures forall k :: k in TypeMapping ==> TypeMapping[k] in files
  {
    var files := seq(|DefaultTemplates|, i requires 0 <= i < |DefaultTemplates| => DefaultTemplates[i].0);
    assert files == ["bug.md", "feature.md", "docs.md", "refactor.md", "test.md", "performance.md", "security.md"];
    files
  }

  /** `TYPE_MAPPING.get(change_type.lower(), "feature.md")`. */
  function TemplateFile(changeType: string): string
  {
    var key := Lower(changeType);
    if key in TypeMapping then TypeMapping[key] else FallbackFile
  }

  /** Every file the mapping can select is one of the default templates. */
  lemma TemplateFileIsDefault(changeType: string)
    ensures TemplateFile(changeType) in DefaultFiles()
  {
  }

  /** Every key of the mapping is lower case, so a change type spelled as a
      key selects that key's file. */
  lemma KeysAreLowerCase()
    ensures forall k :: k in TypeMapping ==> Lower(k) == k && TemplateFile(k) == TypeMapping[k]
  {
    forall k | k in TypeMapping ensures Lower(k) == k {
      LowerOfLowerCase(k);
    }
  }

  /** A change type spelled as a key of the mapping selects that key's file. */
  lemma MappedKey(key: string)
    requires key in TypeMapping
    ensures TemplateFile(key) == TypeMapping[key]
  {
    KeysAreLowerCase();
  }

  /** The aliases: each pair of change types selects the same file. */
  lemma Aliases()
    ensures TemplateFile("bug") == TemplateFile("fix") == "bug.md"
    ensures TemplateFile("feature") == TemplateFile("enhancement") == "feature.md"
    ensures TemplateFile("docs") == TemplateFile("documentation") == "docs.md"
    ensures TemplateFile("refactor") == TemplateFile("cleanup") == "refactor.md"
    ensures TemplateFile("test") == TemplateFile("testing") == "test.md"
    ensures TemplateFile("performance") == TemplateFile("optimization") == "performance.md"
    ensures TemplateFile("security") == "security.md"
  {
    assert TemplateFile("bug") == "bug.md" by { MappedKey("bug"); }
    assert TemplateFile("fix") == "bug.md" by { MappedKey("fix"); }
    assert TemplateFile("feature") == "feature.md" by { MappedKey("feature"); }
    assert TemplateFile("enhancement") == "feature.md" by { MappedKey("enhancement"); }
    assert TemplateFile("docs") == "docs.md" by { MappedKey("docs"); }
    assert TemplateFile("documentation") == "docs.md" by { MappedKey("documentation"); }
    assert TemplateFile("refactor") == "refactor.md" by { MappedKey("refactor"); }
    assert TemplateFile("cleanup") == "refactor.md" by { MappedKey("cleanup"); }
    assert TemplateFile("test") == "test.md" by { MappedKey("test"); }
    assert TemplateFile("testing") == "test.md" by { MappedKey("testing"); }
    assert TemplateFile("performance") == "performance.md" by { MappedKey("performance"); }
    assert TemplateFile("optimization") == "performance.md" by { MappedKey("optimization"); }
    MappedKey("security");
  }

  /** Every default template is the one some change type selects. */
  lemma EveryTemplateSelectable()
    ensures forall f :: f in DefaultFiles() ==> exists k :: k in TypeMapping && TemplateFile(k) == f
  {
    var files := DefaultFiles();
    assert files == ["bug.md", "feature.md", "docs.md", "refactor.md", "test.md", "performance.md", "security.md"];
    forall f | f in files ensures exists k :: k in TypeMapping && TemplateFile(k) == f {
      var k := KeyFor(f);
      MappedKey(k);
    }
  }

  /** A change type for each default template. */
  function KeyFor(f: string): (k: string)
    requires f in ["bug.md", "feature.md", "docs.md", "refactor.md", "test.md", "performance.md", "security.md"]
    ensures k in TypeMapping && TypeMapping[k] == f
  {
    if f == "bug.md" then "bug" else if f == "feature.md" then "feature"
    else if f == "docs.md" then "docs" else if f == "refactor.md" then "refactor"
    else if f == "test.md" then "test" else if f == "performance.md" then "performance"
    else "security"
  }

  /** The case of the change type does not matter. */
  lemma CaseInsensitive(changeType: string)
    ensures TemplateFile(Lower(changeType)) == TemplateFile(changeType)
  {
    LowerIdempotent(changeType);
  }

  /** A change type the mapping does not know, in any case, selects "feature.md". */
  lemma UnknownTypeIsFeature(changeType: string)
    requires Lower(changeType) !in TypeMapping
    ensures TemplateFile(changeType) == "feature.md"
  {
  }

  /** The first entry of the catalog with that file name, else the first entry. */
  function SelectTemplate(catalog: seq<Template>, file: string): (t: Template)
    requires catalog != []
    ensures t in catalog
    ensures (exists i :: 0 <= i < |catalog| && catalog[i].filename == file) ==> t.filename == file
    ensures t != catalog[0] ==> t.filename == file
  {
    var k := FirstWithFile(catalog, file);
    if k < |catalog| then catalog[k] else catalog[0]
  }

  /** Index of the first entry named `file`, or `|catalog|` when there is none. */
  function FirstWithFile(catalog: seq<Template>, file: string): (k: nat)
    ensures k <= |catalog|
    ensures k < |catalog| ==> catalog[k].filename == file
    ensures forall i :: 0 <= i < k ==> catalog[i].filename != file
  {
    if catalog == [] then 0
    else if catalog[0].filename == file then 0
    else 1 + FirstWithFile(catalog[1..], file)
  }

  /** The selected entry is the first one with the mapped file name: every
      entry before it has another name. */
  lemma SelectsFirstMatch(catalog: seq<Template>, file: string, i: nat)
    requires i < |catalog| && catalog[i].filename == file
    ensures var t := SelectTemplate(catalog, file);
            exists k :: 0 <= k <= i && catalog[k] == t
                        && forall j :: 0 <= j < k ==> catalog[j].filename != file
  {
    var k := FirstWithFile(catalog, file);
    assert k <= i;
  }

  /** What `get_pr_templates` gave: an error response (returned unchanged),
      or the list of loaded templates. */
  datatype Listing = ListingError(response: string) | Loaded(templates: seq<Template>)

  /** The tool's reply. */
  datatype Reply =
    | PassedThrough(response: string)
    | NoTemplates
    | Suggestion(recommended: Template, reasoning: string, templateContent: string, usageHint: string)

  const UsageHint: string := "Claude can help you fill out this template based on the specific changes in your PR."

  /** `suggest_template(changes_summary, change_type)`. */
  function SuggestTemplate(listing: Listing, changesSummary: string, changeType: string): (r: Reply)
    ensures listing.ListingError? <==> r.PassedThrough?
    ensures listing.ListingError? ==> r.response == listing.response
    ensures r.NoTemplates? <==> listing == Loaded([])
    ensures r.Suggestion? ==> r.recommended in listing.templates
                              && r.templateContent == r.recommended.content
                              && r.usageHint == UsageHint
    ensures r.Suggestion? && r.recommended != listing.templates[0] ==>
              r.recommended.filename == TemplateFile(changeType)
    ensures r.Suggestion? ==> r.recommended == SelectTemplate(listing.templates, TemplateFile(changeType))
    ensures r.Suggestion? ==>
              r.reasoning == "Based on your analysis: '" + changesSummary + "', this appears to be a " + changeType + " change."
  {
    match listing
    case ListingError(response) => PassedThrough(response)
    case Loaded(templates) =>
      if templates == [] then NoTemplates
      else
        var selected := SelectTemplate(templates, TemplateFile(changeType));
        Suggestion(selected,
          "Based on your analysis: '" + changesSummary + "', this appears to be a " + changeType + " change.",
          selected.content,
          UsageHint)
  }

  /** With every default template loaded, the suggestion is always the
      template the change type maps to. */
  lemma FullCatalogSelectsMappedFile(templates: seq<Template>, changesSummary: string, changeType: string)
    requires forall f :: f in DefaultFiles() ==> exists t :: t in templates && t.filename == f
    ensures var r := SuggestTemplate(Loaded(templates), changesSummary, changeType);
            r.Suggestion? && r.recommended.filename == TemplateFile(changeType)
  {
    TemplateFileIsDefault(changeType);
    var t :| t in templates && t.filename == TemplateFile(changeType);
    var i :| 0 <= i < |templates| && templates[i] == t;
    assert templates != [];
  }
}

=== FILE: webhook.dfy ===
/** The webhook receiver: turns one GitHub webhook request into an event,
    appends it to the events file, keeps the last 100 events, and answers with
    an HTTP status. The events file is the state it changes. */
module Webhook {
  import opened Optional
  import opened Events
  import opened PySlice

  /** How many events the file keeps. */
  const Retention: int := 100

  /** What a request body holds under "repository" (or "sender"): nothing, a
      value that is not a JSON object (null, a string, a list, ...), or an
      object whose "full_name" (or "login") member is `field` (`JNull` when
      that member is missing). */
  datatype Nested = Absent | NotADict | Dict(field: Json)

  /** The members of a JSON-object request body that the receiver reads. */
  datatype Payload = Payload(
    action: Json,
    workflowRun: Option<WorkflowRun>,
    checkRun: Json,
    repository: Nested,
    sender: Nested)

  /** A request body: not JSON at all, JSON that is not an object, or an object. */
  datatype Body = InvalidJson | NotAnObject | JsonObject(payload: Payload)

  /** How writing the events file back ends: completely, failing to open the
      file (it is left as it was), or failing after opening it for writing
      (it was truncated and holds an incomplete, undecodable text). */
  datatype WriteOutcome = Written | OpenFailed | Interrupted

  datatype Reply = Success | Failure(message: string)

  /** The HTTP status and the JSON reply of the receiver. */
  datatype Response = Response(status: int, reply: Reply)

  const Saved := Response(200, Success)
  const BadJson := Response(400, Failure("Invalid JSON"))
  const SaveFailed := Response(500, Failure("Failed to save event"))
  const InternalError := Response(500, Failure("Internal server error"))

  /** `data.get(key, {}).get(field)`: `None` where the lookup raises, because
      the value under `key` is not a dictionary. */
  function NestedField(n: Nested): (v: Option<Json>)
    ensures v.None? <==> n.NotADict?
    ensures n.Absent? ==> v == Some(JNull)
    ensures n.Dict? ==> v == Some(n.field)
  {
    match n
    case Absent => Some(JNull)
    case NotADict => None
    case Dict(f) => Some(f)
  }

  /** The event recorded for a request, or `None` where building it raises. */
  function MakeEvent(p: Payload, eventHeader: Option<string>, now: string): (e: Option<Event>)
    ensures e.Some? <==> !p.repository.NotADict? && !p.sender.NotADict?
    ensures e.Some? ==> e.value.timestamp == now
    ensures e.Some? ==> e.value.eventType == (if eventHeader.Some? then eventHeader.value else "unknown")
    ensures e.Some? ==> e.value.action == p.action && e.value.workflowRun == p.workflowRun
                        && e.value.checkRun == p.checkRun
    ensures e.Some? ==> Some(e.value.repository) == NestedField(p.repository)
                        && Some(e.value.sender) == NestedField(p.sender)
  {
    var eventType := if eventHeader.Some? then eventHeader.value else "unknown";
    match (NestedField(p.repository), NestedField(p.sender))
    case (Some(repository), Some(sender)) =>
      Some(Event(now, eventType, p.action, p.workflowRun, p.checkRun, repository, sender))
    case _ => None
  }

  /** The events the receiver starts from: none when the file is missing or
      does not decode; `None` where reading it raises. */
  function PriorEvents(stored: StoredLog): (prior: Option<seq<Event>>)
    ensures prior.None? <==> stored.Unreadable?
    ensures stored.Stored? ==> prior == Some(stored.events)
    ensures stored.NoFile? || stored.Undecodable? ==> prior == Some([])
  {
    match stored
    case NoFile => Some([])
    case Undecodable => Some([])
    case Unreadable => None
    case Stored(events) => Some(events)
  }

  /** `events.append(e); events = events[-100:]`. */
  function Retain(log: seq<Event>, e: Event): (kept: seq<Event>)
    ensures 1 <= |kept| <= Retention
    ensures kept[|kept| - 1] == e
  {
    SliceFrom(log + [e], -Retention)
  }

  /** The last 100 elements of a sequence, or all when there are fewer. */
  function LastRetained(s: seq<Event>): (r: seq<Event>)
    ensures |r| == if |s| < Retention then |s| else Retention
  {
    s[|s| - (if |s| < Retention then |s| else Retention)..]
  }

  /** After an append the log holds at most 100 events, ends with the new event,
      and is what remains of the old log and the event after dropping the
      oldest ones. */
  lemma RetainBounded(log: seq<Event>, e: Event)
    ensures Retain(log, e) == LastRetained(log + [e])
    ensures 1 <= |Retain(log, e)| <= Retention
    ensures Retain(log, e)[|Retain(log, e)| - 1] == e
  {
  }

  /** Below the bound nothing is dropped. */
  lemma RetainBelowBound(log: seq<Event>, e: Event)
    requires |log| < Retention
    ensures Retain(log, e) == log + [e]
  {
  }

  /** At the bound the oldest events are dropped and the survivors keep their
      order. */
  lemma RetainAtBound(log: seq<Event>, e: Event)
    requires |log| >= Retention
    ensures Retain(log, e) == log[|log| - (Retention - 1)..] + [e]
  {
    assert (log + [e])[|log| + 1 - Retention..] == log[|log| - (Retention - 1)..] + [e];
  }

  /** Keeping the last 100 of the last 100 with more appended is keeping the
      last 100 of everything. */
  lemma {:induction false} LastRetainedTwice(x: seq<Event>, y: seq<Event>)
    ensures LastRetained(LastRetained(x) + y) == LastRetained(x + y)
  {
    var a := |x| - |LastRetained(x)|;
    assert LastRetained(x) + y == (x + y)[a..];
  }

  /** The log after a series of successful appends, one event at a time. */
  function AppendAll(log: seq<Event>, es: seq<Event>): seq<Event>
    decreases |es|
  {
    if es == [] then log else AppendAll(Retain(log, es[0]), es[1..])
  }

  /** Appending events one by one to a log within the bound keeps exactly the
      last 100 of the old log and the new events, in the order they arrived. */
  lemma {:induction false} AppendAllKeepsLast(log: seq<Event>, es: seq<Event>)
    requires |log| <= Retention
    ensures AppendAll(log, es) == LastRetained(log + es)
    decreases |es|
  {
    if es == [] {
      assert log + es == log;
    } else {
      RetainBounded(log, es[0]);
      AppendAllKeepsLast(Retain(log, es[0]), es[1..]);
      LastRetainedTwice(log + [es[0]], es[1..]);
      assert log + [es[0]] + es[1..] == log + es;
    }
  }

  /** Everything `handle_webhook` does, as a function of the file before the
      request: the response and the file afterwards. */
  datatype Outcome = Outcome(response: Response, after: StoredLog)

  function Handle(before: StoredLog, body: Body, eventHeader: Option<string>, now: string,
                  write: WriteOutcome): (o: Outcome)
    ensures o.response.status in {200, 400, 500}
    ensures o.response.status == 200 <==> o.response.reply == Success
    ensures o.response.status == 400 <==> body.InvalidJson?
    ensures o.response.status == 200 ==>
              o.after.Stored? && 1 <= |o.after.events| <= Retention
              && o.after.events[|o.after.events| - 1].timestamp == now
    ensures o.response == Saved <==>
              body.JsonObject? && MakeEvent(body.payload, eventHeader, now).Some?
              && PriorEvents(before).Some? && write.Written?
    ensures !(o.response == SaveFailed && write.Interrupted?) && o.response != Saved ==> o.after == before
    ensures o.response == SaveFailed && write.Interrupted? ==> o.after == Undecodable
    ensures body.InvalidJson? ==> o.response == BadJson
    ensures o.response == SaveFailed <==>
              body.JsonObject? && MakeEvent(body.payload, eventHeader, now).Some?
              && PriorEvents(before).Some? && !write.Written?
    ensures o.response.status == 500 && o.response != SaveFailed ==> o.response == InternalError
  {
    match body
    case InvalidJson => Outcome(BadJson, before)
    case NotAnObject => Outcome(InternalError, before)
    case JsonObject(p) =>
      match (MakeEvent(p, eventHeader, now), PriorEvents(before))
      case (Some(e), Some(prior)) =>
        RetainBounded(prior, e);
        (match write
         case Written => Outcome(Saved, Stored(Retain(prior, e)))
         case OpenFailed => Outcome(SaveFailed, before)
         case Interrupted => Outcome(SaveFailed, Undecodable))
      case _ => Outcome(InternalError, before)
  }

  /** A request that is saved appends its event to what the file held. */
  lemma HandleSaves(before: StoredLog, p: Payload, eventHeader: Option<string>, now: string)
    requires MakeEvent(p, eventHeader, now).Some? && before != Unreadable
    ensures var e := MakeEvent(p, eventHeader, now).value;
            var o := Handle(before, JsonObject(p), eventHeader, now, Written);
            o.response == Saved
            && o.after == Stored(Retain(if before.Stored? then before.events else [], e))
  {
    var prior := if before.Stored? then before.events else [];
    var e := MakeEvent(p, eventHeader, now).value;
    assert PriorEvents(before) == Some(prior);
    assert Handle(before, JsonObject(p), eventHeader, now, Written) == Outcome(Saved, Stored(Retain(prior, e)));
  }

  /** A file that is missing or does not decode counts as an empty log, so the
      saved log is just the new event. */
  lemma MissingOrCorruptStartsOver(before: StoredLog, p: Payload, eventHeader: Option<string>, now: string)
    requires before == NoFile || before == Undecodable
    requires MakeEvent(p, eventHeader, now).Some?
    ensures Handle(before, JsonObject(p), eventHeader, now, Written).after
            == Stored([MakeEvent(p, eventHeader, now).value])
  {
  }

  /** Two requests saved back to back both land, in arrival order, behind the
      last 98 or fewer events the file held. */
  lemma {:induction false} BackToBack(log: seq<Event>, p1: Payload, p2: Payload, h1: Option<string>,
                                      h2: Option<string>, t1: string, t2: string)
    requires |log| <= Retention
    requires MakeEvent(p1, h1, t1).Some? && MakeEvent(p2, h2, t2).Some?
    ensures var mid := Handle(Stored(log), JsonObject(p1), h1, t1, Written).after;
            Handle(mid, JsonObject(p2), h2, t2, Written).after
            == Stored(LastRetained(log + [MakeEvent(p1, h1, t1).value, MakeEvent(p2, h2, t2).value]))
  {
    var e1, e2 := MakeEvent(p1, h1, t1).value, MakeEvent(p2, h2, t2).value;
    HandleSaves(Stored(log), p1, h1, t1);
    var mid := Handle(Stored(log), JsonObject(p1), h1, t1, Written).after;
    assert mid == Stored(Retain(log, e1));
    HandleSaves(mid, p2, h2, t2);
    assert Handle(mid, JsonObject(p2), h2, t2, Written).after == Stored(Retain(Retain(log, e1), e2));
    AppendAllKeepsLast(log, [e1, e2]);
    assert AppendAll(log, [e1, e2]) == AppendAll(Retain(log, e1), [e2]);
    assert [e1, e2][1..] == [e2];
    assert AppendAll(Retain(log, e1), [e2]) == AppendAll(Retain(Retain(log, e1), e2), []);
  }

  /** A write that fails after the file was opened leaves it undecodable, and
      the next saved request then starts the log over: every older event is lost. */
  lemma InterruptedWriteLosesHistory(log: seq<Event>, p1: Payload, p2: Payload, h1: Option<string>,
                                     h2: Option<string>, t1: string, t2: string)
    requires MakeEvent(p1, h1, t1).Some? && MakeEvent(p2, h2, t2).Some?
    ensures var mid := Handle(Stored(log), JsonObject(p1), h1, t1, Interrupted);
            mid.response == SaveFailed
            && Handle(mid.after, JsonObject(p2), h2, t2, Written).after == Stored([MakeEvent(p2, h2, t2).value])
  {
  }

  /** The events file, which the receiver reads, changes and writes back. */
  class EventsFile {
    var stored: StoredLog

    constructor (initial: StoredLog)
      ensures stored == initial
    {
      stored := initial;
    }

    /** Reads the file back: `None` where opening it raises. */
    method ReadEvents() returns (events: Option<seq<Event>>)
      ensures events == PriorEvents(stored)
    {
      match stored {
        case NoFile => events := Some([]);
        case Undecodable => events := Some([]);
        case Unreadable => events := None;
        case Stored(es) => events := Some(es);
      }
    }

    /** Writes `events` back over the file, as `write` says it ends. */
    method Save(events: seq<Event>, write: WriteOutcome) returns (response: Response)
      modifies this
      ensures write.Written? ==> response == Saved && stored == Stored(events)
      ensures write.OpenFailed? ==> response == SaveFailed && stored == old(stored)
      ensures write.Interrupted? ==> response == SaveFailed && stored == Undecodable
    {
      match write {
        case Written =>
          stored := Stored(events);
          response := Saved;
        case OpenFailed =>
          response := SaveFailed;
        case Interrupted =>
          stored := Undecodable;
          response := SaveFailed;
      }
    }

    /** `handle_webhook`: `now` is the capture time, `write` how saving ends. */
    method HandleWebhook(body: Body, eventHeader: Option<string>, now: string, write: WriteOutcome)
      returns (response: Response)
      modifies this
      ensures Outcome(response, stored) == Handle(old(stored), body, eventHeader, now, write)
    {
      if body.InvalidJson? {
        return BadJson;
      }
      if body.NotAnObject? {
        return InternalError;
      }
      var event := MakeEvent(body.payload, eventHeader, now);
      if event.None? {
        return InternalError;
      }
      var prior := ReadEvents();
      if prior.None? {
        return InternalError;
      }
      var events := prior.value;
      events := events + [event.value];
      events := SliceFrom(events, -Retention);
      response := Save(events, write);
    }
  }
}
